=== FILE: README.md ===
# Vortex browser editor, modelled in Dafny

Vortex is an AI video studio that runs in the browser. This project models the
client-side logic that decides what the editor does. Clicks, drops and
speech-recognition events are inputs. DOM nodes, notifications and ids
are left out.

- **Editor state** (`public/js/app.js`):
  - imported media and timeline clips;
  - the number of rendered tracks;
  - the undo log of `{clips, tracks}` snapshots;
  - the video-sequence cursor, the previewed file and the zoom level.
- **Editor operations** that change that state: import, add from library,
  add track, split, text overlay, undo/redo, sequencing and zoom.
  - Two DOM facts change what the editor does: whether the page has a
    `.timeline-tracks` container and whether it has a playhead. They are
    fixed at start-up, so they are fields of the state.
- **Lookup tables**: the colour-grade filter cycle, the voice-preset slider
  table, and the playback-rate rule of the voice effect.
- **Password checks** (`public/js/password-security.js`): the strength meter,
  its bars, the visibility toggle and the signup check.
- **Voice assistant** (`public/js/voice-assistant.js`):
  - the keyword classifier that turns a spoken command into a project
    suggestion;
  - transcript assembly;
  - the listening flag and panel;
  - project naming.
- **Voice search** (`public/js/voice-search.js`): the card filter and the
  one-shot listening loop.

Files:

| file | module | covers |
|---|---|---|
| options.dfy | `Options` | `Option` |
| text.dfy | `Text` | `toLowerCase` (ASCII), `includes`, `startsWith`, `trim` |
| history.dfy | `History` | the linear undo log with truncation on a new branch |
| timeline.dfy | `Timeline` | editor state, clip and track operations, sequencing, zoom |
| undo.dfy | `UndoRedo` | undo/redo as written and as intended |
| effects.dfy | `Effects` | colour grading, voice presets, playback rate |
| password.dfy | `Password` | strength meter, bars, toggle, signup check |
| speech.dfy | `Speech` | recognition result segments, their final and interim texts |
| assistant.dfy | `Assistant` | command classifier, suggestions, transcript, listening |
| search.dfy | `Search` | project search and its listening loop |

`Timeline.Coherent` is the invariant every reachable editor keeps:

- the log is well formed;
- its current entry equals the live `{clips, tracks}`;
- neighbouring entries differ by at most one added track, and by none
  without a track container.

Every editing operation preserves it. Undo and redo, as corrected, preserve
it too.

## Model

| member | source | states |
|---|---|---|
| History.Empty | public/js/app.js:14-15 | the empty log (index -1) is valid, with nothing to undo or redo |
| History.Push | public/js/app.js:851-865 | recording keeps the entries up to the current one, appends the new one, points at it, and leaves nothing to redo |
| History.Back | public/js/app.js:867-875 | with an earlier entry, the index moves back by one over the same entries, and something becomes redoable |
| History.Forward | public/js/app.js:877-885 | with a later entry, the index moves forward by one over the same entries, and something becomes undoable |
| History.BackThenForward | public/js/app.js:867-885 | moving back then forward restores the log |
| History.ForwardThenBack | public/js/app.js:867-885 | moving forward then back restores the log |
| History.PushAfterBackDiscardsUndone | public/js/app.js:858-861 | recording after an undo drops the undone entry for good |
| History.BranchExample | public/js/app.js:858-864 | concretely, [a, b, c] at index 1 plus d becomes [a, b, d] at index 2 |
| History.PushAllAtEndAppends | public/js/app.js:851-865 | recording at the end of the log only appends, one entry per call |
| Timeline.Init | public/js/app.js:6-18 | the initial state (empty log, zoom 1) is coherent |
| Timeline.AddToHistory | public/js/app.js:851-865 | a value copy of the live clips and track count becomes the newest entry, and nothing else changes |
| Timeline.PushKeepsCoherent | public/js/app.js:851-865 | recording a state one step from the current entry keeps the editor coherent |
| Timeline.AddTextOverlay | public/js/app.js:831-849 | an overlay changes nothing in the editor but the log, where it still records a copy of the current state as exactly one entry |
| Timeline.FindFrom | public/js/app.js:736 | the position found is the first media file with that id, and none means no file has it |
| Timeline.Lookup | public/js/app.js:736 | a file is found iff some media file carries the id, and the one found is the first media file carrying it |
| Timeline.VideoClips | public/js/app.js:734-739 | the video sequence is no longer than the clip list and holds only clips that resolve to `video/` media |
| Timeline.VideoClipsKeepsEveryVideo | public/js/app.js:734-739 | conversely, every clip that resolves to `video/` media is in the sequence |
| Timeline.VideoClipsAppend | public/js/app.js:734-739 | the filter keeps timeline order: it distributes over concatenation |
| Timeline.VideoClipsSingle | public/js/app.js:735-738 | a clip whose media id is unknown never plays in the sequence |
| Timeline.SetupVideoSequence | public/js/app.js:741-755 | with at least one video clip, the cursor is rewound to 0 and the first clip's video is previewed; otherwise nothing changes |
| Timeline.PlayNext | public/js/app.js:787-810 | the cursor advances to the next video clip and previews it, or wraps to 0 past the last; nothing else changes |
| Timeline.PlayNextTimes | public/js/app.js:787-810 | from the first clip of n videos, the k-th "ended" event leaves the cursor at k with clip k previewed, and the n-th brings it back to 0 |
| Timeline.SequencePlaysInOrder | public/js/app.js:741-810 | after starting the sequence, the n-th "ended" event previews video clip n, in timeline order, and once all have played the cursor is back at the first |
| Timeline.AppendClip | public/js/app.js:645-646 | one clip is appended and one entry recorded; ids stay unique for a fresh id; coherence is kept |
| Timeline.AddClip | public/js/app.js:637-658 | the new clip has the file's id and name, the given track, start 0 and duration 5, with one entry recorded; with more than one video clip the sequence restarts on the first video clip's file, otherwise the file is previewed and the sequence is left as it was; media, tracks, zoom and the page flags are unchanged |
| Timeline.Import | public/js/app.js:586-605 | a dropped file is always registered; only a `video/` file is also placed on the timeline, as a clip for that file appended after the existing clips, on the track numbered by the clip count, with one entry recorded |
| Timeline.AddFromLibrary | public/js/app.js:623-625 | a library click appends a clip for the clicked file after the existing clips, on the track numbered by the clip count, and records one entry; media, tracks and zoom are unchanged |
| Timeline.AddTrack | public/js/app.js:701-711 | with a track container, one more track and one entry; without one, nothing changes |
| Timeline.SplitClip | public/js/app.js:713-728 | with a playhead and a clip, a copy of the last clip under a new id and " (Part 2)" name is appended and recorded, and nothing else changes; otherwise nothing changes at all |
| Timeline.EditsKeepRecordedEntries | public/js/app.js:853-856 | adding, splitting, adding a track or an overlay never alters a recorded entry up to the current one |
| Timeline.SetZoom | public/js/app.js:684-699 | the level is clamped into [0.5, 3], exactly and only when it falls outside |
| Timeline.SetZoomMonotoneIdempotent | public/js/app.js:685 | clamping is monotone, and applying it to its own result changes nothing |
| Timeline.ZoomIn | public/js/app.js:178-179 | "+" never lowers the zoom, stops at 3, adds 0.1 away from the bound, and changes nothing but the zoom |
| Timeline.ZoomOut | public/js/app.js:180 | "-" never raises the zoom, stops at 0.5, subtracts 0.1 away from the bound, and changes nothing but the zoom |
| Timeline.ZoomInThenOut | public/js/app.js:178-180 | one step in and one out returns to the same level away from the bounds |
| UndoRedo.AddTracks | public/js/app.js:895-896 | the restore loop adds exactly the missing tracks when there is a container |
| UndoRedo.RestoreAsWritten | public/js/app.js:887-907 | restoring replaces the clips, and removing tracks records nothing |
| UndoRedo.UndoAsWritten | public/js/app.js:867-875 | on a coherent editor, undo as written equals the intended undo |
| UndoRedo.RedoAsWritten | public/js/app.js:877-885 | redo as written keeps the log valid and does nothing at the end of the log |
| UndoRedo.RedoAsWrittenSameTracks | public/js/app.js:877-907 | across a step that kept the track count, redo as written is the intended redo |
| UndoRedo.RedoAsWrittenRecordsAgain | public/js/app.js:877-907 | across a step that added a track, redo as written is the intended redo followed by one more recording |
| UndoRedo.RedoAsWrittenAddedTrack | public/js/app.js:877-907 | that recording copies the redone entry, cuts off every later entry and leaves nothing to redo |
| UndoRedo.RedoAsWrittenAcrossAddedTrack | public/js/app.js:877-907 | both cases together; coherence survives either way |
| UndoRedo.SessionLog | public/js/app.js:701-711 | an overlay, a new track and a dropped video file leave a log of three entries with 1, 2 and 2 tracks |
| UndoRedo.RedoAsWrittenLosesLaterEntries | public/js/app.js:867-907 | in that session, for any dropped video file, two undos and two redos as written do not return to the clip's entry, but the corrected pair does |
| UndoRedo.Restore | public/js/app.js:887-907 | the intended restore makes the snapshot live and changes nothing else |
| UndoRedo.Undo | public/js/app.js:867-875 | with an earlier entry, step back and make it live; otherwise nothing changes; coherence is kept |
| UndoRedo.Redo | public/js/app.js:877-885 | with a later entry, step forward and make it live; otherwise nothing changes; coherence is kept |
| UndoRedo.UndoThenRedo | public/js/app.js:867-885 | on a coherent editor, redo undoes undo exactly |
| UndoRedo.RedoThenUndo | public/js/app.js:867-885 | on a coherent editor, undo undoes redo exactly |
| UndoRedo.IndexStaysInBounds | public/js/app.js:868-878 | neither version moves the index outside a non-empty log |
| Effects.IndexOf | public/js/app.js:995 | `indexOf` gives the first position of the filter, or -1 iff it is not listed |
| Effects.ApplyColorGrading | public/js/app.js:978-999 | no video means no grading; otherwise the next filter is listed, the caption reads "Original" exactly for "none", and otherwise "Cinematic n" with n the new filter's position counted from 1 |
| Effects.NextFilter | public/js/app.js:994-996 | one click always lands on a listed filter |
| Effects.GradeStep | public/js/app.js:994-996 | the filter at position k moves to k + 1, and the last wraps to the first |
| Effects.GradeFromUnlisted | public/js/app.js:994-998 | an unset or unknown filter moves to the first, captioned "Cinematic 1" |
| Effects.PresetFrom | public/js/app.js:1685-1693 | a preset found is a table row with that name, and none means no row has it |
| Effects.FindPreset | public/js/app.js:1695 | a preset is found iff some row has that name, and "none" is never one |
| Effects.PresetsInRange | public/js/app.js:1685-1693 | every preset has a positive speed, reverb and echo within 0..100, and pitch within -12..12 |
| Effects.ApplyVoicePreset | public/js/app.js:1679-1715 | a known preset sets all four sliders; "none" or an unknown name leaves them unchanged |
| Effects.BaseRate | public/js/app.js:1367-1371 | exactly radio, robot and deep have a base rate, 1.0, 0.9 and 0.8, all in (0, 1] |
| Effects.ApplyVoiceEffect | public/js/app.js:1351-1398 | a missing or "none" preset is refused before a missing video; with a preset and a video, a rate is set iff the preset has a base rate, and it is that base times 1 + 0.05 * pitch, positive iff pitch > -20; any other preset only reports its name |
| Effects.RateMonotoneInPitch | public/js/app.js:1380 | raising the pitch never lowers the rate |
| Effects.SliderOnlyPresetsKeepRate | public/js/app.js:1373-1396 | presets outside the rate table only report themselves |
| Password.Score | public/js/password-security.js:29-37 | a one-pass count equals the five criteria: length 8, length 12, both letter cases, a digit, a symbol |
| Password.Normalize | public/js/password-security.js:40 | the strength is at most 4 and at most the score, and equals a score of 4 or less |
| Password.Feedback | public/js/password-security.js:42-46 | every strength has a label and a colour; 0 is "Weak" in #ff4444, 1 to 3 take the label and colour at their own position, and 4 or more is "Very Strong" in #00ff88 |
| Password.ScoreExtremes | public/js/password-security.js:29-46 | the empty password scores 0, and a full score caps at "Very Strong" |
| Password.LongPasswordsScoreTwo | public/js/password-security.js:33-34 | twelve characters or more score at least 2 |
| Password.ScoreMonotone | public/js/password-security.js:33-37 | typing more characters never lowers the score |
| Password.Bars | public/js/password-security.js:85-92 | of the four bars, bar i is coloured iff i <= strength |
| Password.LitPrefix | public/js/password-security.js:86-92 | the first n bars hold min(n, strength + 1) coloured ones |
| Password.LitBars | public/js/password-security.js:86-92 | strength + 1 bars are coloured, at most four |
| Password.ValidateSignup | public/js/password-security.js:136-151 | too short iff under 8; refused for content iff 8 or longer and all letters; accepted iff 8 or longer with a non-letter |
| Password.DigitIsNonLetter | public/js/password-security.js:146 | the digit test adds nothing to the non-letter test |
| Password.AcceptedScoresGood | public/js/password-security.js:29-50 | whatever signup accepts shows at least "Good" |
| Password.Toggle | public/js/password-security.js:120-128 | each click flips the field's visibility and its icon |
| Password.ToggleTwice | public/js/password-security.js:120-128 | two clicks restore the field |
| Assistant.FirstMatchFrom | public/js/voice-assistant.js:229-235 | the row found is the first, from the start index on, with a keyword in the text |
| Assistant.DetectType | public/js/voice-assistant.js:214-235 | a type is detected iff some row has a keyword in the lower-cased command; it is the first such row |
| Assistant.ProcessCommand | public/js/voice-assistant.js:237-241 | a card is shown iff a type is detected or the command says "video", "create" or "make"; the card is the detected type, else "general" |
| Assistant.ProcessCommandIgnoresCase | public/js/voice-assistant.js:216 | commands equal up to case get the same outcome |
| Assistant.SubstringMatchExample | public/js/voice-assistant.js:231 | keywords match inside words: "I MADE this" is a marketing command |
| Assistant.SuggestionFrom | public/js/voice-assistant.js:247-280 | a card found is a table row with that key, and none means no row has it |
| Assistant.SuggestionFor | public/js/voice-assistant.js:282 | an unknown key falls back to the general card, and a known key gets its own |
| Assistant.EveryTypeHasCard | public/js/voice-assistant.js:219-227 | every type the classifier reports has its own card |
| Assistant.Capitalize | public/js/voice-assistant.js:301 | capitalizing keeps the length and the rest of the word, and changes nothing up to case |
| Assistant.ProjectName | public/js/voice-assistant.js:301 | the name is the type with its first letter capitalized, then " Video - ", then the date |
| Assistant.ProjectNameExample | public/js/voice-assistant.js:301 | "marketing" names a "Marketing Video - ..." project |
| Assistant.Collect | public/js/voice-assistant.js:45-55 | the final text is the final segments' texts from `resultIndex` on, in order, each followed by a space, and the interim text is the interim segments' texts in order; the final text is non-empty iff some segment is final |
| Assistant.OnResult | public/js/voice-assistant.js:44-66 | the transcript is the final text if any, else the interim; a command runs iff some segment is final, and it is the trimmed final text |
| Assistant.SingleFinalSegment | public/js/voice-assistant.js:48-64 | one final segment yields its own text, trimmed, as the command |
| Assistant.Displayed | public/js/voice-assistant.js:188-200 | a blank transcript shows the placeholder, and any other is shown as is |
| Assistant.DisplayedPlaceholderIffSpaces | public/js/voice-assistant.js:190 | only all-whitespace transcripts are replaced |
| Assistant.StartListening | public/js/voice-assistant.js:147-164 | with recognition, listening starts with an empty transcript and nothing else changes; without it nothing changes |
| Assistant.StopListening | public/js/voice-assistant.js:166-174 | with recognition, listening stops and nothing else changes; without it nothing changes |
| Assistant.Step | public/js/voice-assistant.js:69-133 | a start click starts listening with an empty transcript; `onend` restarts iff still listening; stop, close and create stop listening; only a start click sets the flag; a result event shows the assembled transcript, and exactly for a final result shows what `processCommand` makes of the trimmed final text; the panel toggle opens a closed panel and closes an open one, stopping listening; a "not-allowed" error stops listening and any other error changes nothing; only start and result events touch the transcript |
| Assistant.UnsupportedNeverListens | public/js/voice-assistant.js:30-36 | without speech recognition the flag is never set |
| Assistant.NoStartNoListening | public/js/voice-assistant.js:147-153 | a session without a start click never listens |
| Search.CountVisible | public/js/voice-search.js:122 | the count never exceeds the number of cards |
| Search.Filter | public/js/voice-search.js:115-126 | each card is visible iff its lower-cased title or text contains the lower-cased query, and the count is the number visible |
| Search.PerformSearch | public/js/voice-search.js:101-129 | a blank query shows every card and counts nothing; otherwise the cards are filtered by the untrimmed query |
| Search.MatchIgnoresCase | public/js/voice-search.js:112-119 | queries equal up to case match the same cards |
| Search.LongerQueryNarrows | public/js/voice-search.js:112-119 | typing more characters only hides cards |
| Search.NonSpaceNotBlank | public/js/voice-search.js:105 | a query with a non-space character is filtered on |
| Search.PaddedQueryNotBlank | public/js/voice-search.js:105 | " cat" is not blank |
| Search.SurroundingSpacesMatter | public/js/voice-search.js:112-119 | the query is not trimmed: " cat" misses a card reading "cat" that "cat" finds |
| Search.StartListening | public/js/voice-search.js:75-85 | with recognition, listening starts and the placeholder reads "Listening...", nothing else changes; without it nothing changes |
| Search.StopListening | public/js/voice-search.js:87-99 | with recognition, listening stops and the placeholder reads "Search projects...", nothing else changes; without it nothing changes |
| Search.ApplyResults | public/js/voice-search.js:32-45 | the box ends with the last segment's text; a final segment stops listening; interim-only results change nothing else; the placeholder stays in step with the flag |
| Search.SearchesAreFinalTexts | public/js/voice-search.js:34-39 | the searches run are exactly the final segments' texts, in order |
| Search.Step | public/js/voice-search.js:32-72 | a click toggles listening; typing searches the typed value; a result event is applied segment by segment, searching its final texts; an error or end stops; only typing and result events change the box or search; the placeholder stays in step with the flag |
| Search.ClickTwiceRestores | public/js/voice-search.js:59-65 | two clicks restore the listening flag |
| Search.RunKeepsPlaceholderInSync | public/js/voice-search.js:75-99 | over any session, the placeholder reads "Listening..." exactly while the box is listening |
| Search.UnsupportedSearchesOnlyTyped | public/js/voice-search.js:19-25 | without speech recognition the flag is never set, and every search run is a value typed into the box |
| Text.LowerIdempotent | public/js/voice-search.js:113 | lower-casing leaves no capital, so doing it twice changes nothing |
| Text.OccurrenceIsFound | public/js/voice-search.js:120 | `includes` finds an occurrence at any position |
| Text.ContainsIffOccurs | public/js/voice-search.js:120 | `includes` holds iff the substring occurs at some position |
| Text.ContainsExtension | public/js/voice-search.js:120 | a text containing a + b contains a |
| Text.TrimStart | public/js/voice-assistant.js:64 | trimming the front removes only leading whitespace, and the rest starts with a non-space |
| Text.TrimEnd | public/js/voice-assistant.js:64 | trimming the back removes only trailing whitespace, and the rest ends with a non-space |
| Text.Trim | public/js/voice-assistant.js:64 | the trimmed text is the slice of the input with only whitespace before and after it, and it neither starts nor ends with whitespace |
| Text.TrimIsSlice | public/js/voice-assistant.js:64 | trimming the front and then the back leaves a slice of the input with only whitespace around it |
| Text.BlankIffAllSpace | public/js/voice-search.js:105 | a text is blank iff every character is whitespace |

## Left out

- DOM rendering, notifications, `alert`, CSS, animations and timers are left
  out. Only the state they act on is modelled.
- Clip and media ids come from `generateId`, which reads the clock and a random
  number. They are parameters here. Uniqueness is stated conditionally, for a
  fresh id.
- `URL.createObjectURL`, file sizes and names are opaque fields.
- The backend is not part of this model: login, signup, projects and export,
  including `combineVideosForExport`, `exportVideo` and `saveProject`.
- The playhead `timeupdate` sync and the auto-play timeout are not modelled.
- `renderTimelineClip` and the track DOM are not modelled. The track count is a
  number; clips whose track index has no track are simply not drawn, which does
  not change the state.
- Zoom and playback rates are real numbers, not IEEE doubles. The pitch slider
  value is taken as already parsed by `parseFloat`.
- `toLowerCase` and `toUpperCase` are modelled on ASCII letters only. Other
  characters are left as they are.
- String lengths count code points, while JavaScript counts UTF-16 code units.
  This matters for the 8- and 12-character password limits only with
  characters outside the Basic Multilingual Plane.
- Lookups by name follow the listed keys. Inherited object properties such as
  `constructor`, which `presets[...]` and `suggestions[...]` would also find,
  are not modelled.
- The date in a project name is a parameter. `localStorage`, the redirect and
  the page detection of `createProjectFromVoice` are not modelled; only its
  stop-and-close effect is.
- The voice-effect sliders other than the preset selector are assumed present.
  Missing sliders only skip a DOM write.
- Timeline.AddTextOverlay: assumes the preview screen exists. Without one the
  source throws before recording an entry.
- Timeline.SetupVideoSequence and Timeline.PlayNext: the preview is updated even
  when the page has no preview screen, where the source would throw.
- The robot preset has pitch -8 (public/js/app.js:1687). The pitch factor is
  linear, 5% per step (public/js/app.js:1379), not a semitone ratio.
- The undo log holds snapshots by value. This is what `JSON.stringify` gives
  for plain clip objects.

## Findings

| source | as written | input that shows it | evidently intended | confidence | as-written member | corrected member |
|---|---|---|---|---|---|---|
| public/js/app.js:887-907 | `restoreHistoryState` re-adds missing tracks by calling `addTrack`, which records a history entry. A redo across an "Add Track" step therefore pushes a copy of the redone entry and truncates every later entry. | Add a text overlay, add a track, drop a video file, then undo twice and redo twice. The editor ends on the added-track entry, and the clip's entry is gone from the log. | Restoring reconciles the track count without recording anything, so redo exactly inverts undo. | not executed | UndoRedo.RedoAsWrittenLosesLaterEntries | UndoRedo.UndoThenRedo |

=== FILE: assistant.dfy ===
/**
 * public/js/voice-assistant.js: the listening flag of the assistant panel, the
 * assembly of a transcript from recognition results, and the classifier that
 * turns a spoken command into a project suggestion.
 */
module Assistant {
  import opened Options
  import opened Text
  import opened Speech

  // ---------------------------------------------------------------- classifier

  /** The video types and their keywords, in the order `processCommand` tries them. */
  const VideoTypes: seq<(string, seq<string>)> := [
    ("marketing", ["marketing", "advertisement", "ad", "promo", "promotional"]),
    ("tutorial", ["tutorial", "how to", "guide", "teach", "lesson"]),
    ("vlog", ["vlog", "blog", "daily", "personal"]),
    ("educational", ["educational", "education", "learning", "lecture"]),
    ("birthday", ["birthday", "celebration", "party"]),
    ("wedding", ["wedding", "marriage", "ceremony"]),
    ("product", ["product", "demo", "demonstration", "showcase"])
  ]

  /** Words that ask for a generic suggestion when no type matched. */
  const IntentWords: seq<string> := ["video", "create", "make"]

  const General: string := "general"

  /** `keywords.some(k => text.includes(k))`. */
  predicate AnyIn(keywords: seq<string>, text: string) {
    exists k :: k in keywords && Contains(text, k)
  }

  /** The first table row at or after `from` with a keyword in `text`. */
  function FirstMatchFrom(text: string, from: nat): (r: Option<nat>)
    ensures r.Some? ==> from <= r.value < |VideoTypes| && AnyIn(VideoTypes[r.value].1, text)
    ensures r.Some? ==> forall j :: from <= j < r.value ==> !AnyIn(VideoTypes[j].1, text)
    ensures r.None? ==> forall j :: from <= j < |VideoTypes| ==> !AnyIn(VideoTypes[j].1, text)
    decreases |VideoTypes| - from
  {
    if from >= |VideoTypes| then None
    else if AnyIn(VideoTypes[from].1, text) then Some(from)
    else FirstMatchFrom(text, from + 1)
  }

  /**
   * The detected video type of a command: the first type in table order with a
   * keyword occurring, as a substring, in the lower-cased command.
   */
  function DetectType(command: string): (r: Option<string>)
    ensures r.None? <==> forall j :: 0 <= j < |VideoTypes| ==> !AnyIn(VideoTypes[j].1, Lower(command))
    ensures r.Some? ==> exists j :: 0 <= j < |VideoTypes| && VideoTypes[j].0 == r.value
                                  && AnyIn(VideoTypes[j].1, Lower(command))
                                  && forall k :: 0 <= k < j ==> !AnyIn(VideoTypes[k].1, Lower(command))
  {
    match FirstMatchFrom(Lower(command), 0)
    case Some(j) => Some(VideoTypes[j].0)
    case None => None
  }

  /** What `processCommand` shows: a suggestion card for a type, or the hint line. */
  datatype Reaction = Suggest(videoType: string, command: string) | Hint

  /**
   * `processCommand`: suggest the detected type, or the general card when the
   * command at least mentions "video", "create" or "make"; otherwise hint.
   */
  function ProcessCommand(command: string): (r: Reaction)
    ensures r.Suggest? <==> DetectType(command).Some? || AnyIn(IntentWords, Lower(command))
    ensures r.Suggest? ==> r.command == command
    ensures r.Suggest? && DetectType(command).None? ==> r.videoType == General
    ensures r.Suggest? && DetectType(command).Some? ==> r.videoType == DetectType(command).value
  {
    var lower := Lower(command);
    var detected := DetectType(command);
    if detected.Some? || Contains(lower, "video") || Contains(lower, "create") || Contains(lower, "make") then
      Suggest(detected.GetOr(General), command)
    else Hint
  }

  /** Classification ignores letter case: commands equal up to case get the same card. */
  lemma ProcessCommandIgnoresCase(a: string, b: string)
    requires Lower(a) == Lower(b)
    ensures ProcessCommand(a).Suggest? == ProcessCommand(b).Suggest?
    ensures ProcessCommand(a).Suggest? ==> ProcessCommand(a).videoType == ProcessCommand(b).videoType
  {
  }

  /** Keywords match inside words: "ad" inside "made" makes a marketing suggestion. */
  lemma SubstringMatchExample()
    ensures DetectType("I MADE this") == Some("marketing")
  {
    var lower := Lower("I MADE this");
    assert lower == "i made this";
    assert OccursAt(lower, "ad", 3);
    OccurrenceIsFound(lower, "ad", 3);
    assert "ad" in VideoTypes[0].1;
  }

  // ---------------------------------------------------------------- suggestions

  datatype Suggestion = Suggestion(title: string, description: string)

  /** The card shown for the "general" type, and for any type without a card of its own. */
  const GeneralCard: Suggestion :=
    Suggestion("\U{1F3AC} New Video Project", "Create a new video project based on your description.")

  const Suggestions: seq<(string, Suggestion)> := [
    ("marketing", Suggestion("\U{1F3AF} Marketing Video Project",
      "Create an engaging marketing video with dynamic transitions and call-to-action elements.")),
    ("tutorial", Suggestion("\U{1F4DA} Tutorial Video Project",
      "Build a step-by-step tutorial with clear visuals and instructional overlays.")),
    ("vlog", Suggestion("\U{1F4F9} Vlog Project",
      "Create a personal vlog with casual editing and authentic storytelling.")),
    ("educational", Suggestion("\U{1F393} Educational Video Project",
      "Produce an informative educational video with clear structure and visual aids.")),
    ("birthday", Suggestion("\U{1F382} Birthday Video Project",
      "Create a festive birthday video with celebration effects and happy music.")),
    ("wedding", Suggestion("\U{1F490} Wedding Video Project",
      "Create a romantic wedding video with elegant transitions and emotional moments.")),
    ("product", Suggestion("\U{1F4E6} Product Demo Project",
      "Showcase your product with professional presentation and highlight features.")),
    ("general", GeneralCard)
  ]

  function SuggestionFrom(key: string, from: nat): (r: Option<Suggestion>)
    ensures r.Some? ==> exists j :: from <= j < |Suggestions| && Suggestions[j] == (key, r.value)
    ensures r.None? <==> forall j :: from <= j < |Suggestions| ==> Suggestions[j].0 != key
    decreases |Suggestions| - from
  {
    if from >= |Suggestions| then None
    else if Suggestions[from].0 == key then Some(Suggestions[from].1)
    else SuggestionFrom(key, from + 1)
  }

  /** `suggestions[videoType] || suggestions['general']`. */
  function SuggestionFor(key: string): (r: Suggestion)
    ensures (forall j :: 0 <= j < |Suggestions| ==> Suggestions[j].0 != key) ==> r == GeneralCard
    ensures (exists j :: 0 <= j < |Suggestions| && Suggestions[j].0 == key) ==>
              exists j :: 0 <= j < |Suggestions| && Suggestions[j] == (key, r)
  {
    SuggestionFrom(key, 0).GetOr(GeneralCard)
  }

  /** Every type the classifier can report has a card of its own, so only unknown keys fall back. */
  lemma EveryTypeHasCard(j: nat)
    requires j < |VideoTypes|
    ensures Suggestions[j].0 == VideoTypes[j].0
    ensures SuggestionFor(VideoTypes[j].0) == Suggestions[j].1
  {
  }

  // ---------------------------------------------------------------- project names

  function UpperChar(c: char): char {
    if IsLower(c) then (c as int - 32) as char else c
  }

  /** `s.charAt(0).toUpperCase() + s.slice(1)`, for ASCII letters. */
  function Capitalize(s: string): (r: string)
    ensures |r| == |s|
    ensures |s| > 0 ==> !IsLower(r[0]) && r[1..] == s[1..]
    ensures Lower(r) == Lower(s)
  {
    if |s| == 0 then s else [UpperChar(s[0])] + s[1..]
  }

  const NameSeparator: string := " Video - "

  /**
   * The name `createProjectFromVoice` gives a project: the type with its first
   * letter capitalized, then " Video - " and the (locale-formatted) date.
   */
  function ProjectName(videoType: string, date: string): (r: string)
    ensures |r| == |videoType| + |NameSeparator| + |date|
    ensures r[..|videoType|] == Capitalize(videoType)
    ensures r[|videoType|..|videoType| + |NameSeparator|] == NameSeparator
    ensures r[|r| - |date|..] == date
  {
    var c := Capitalize(videoType);
    var r := c + NameSeparator + date;
    assert r[..|videoType|] == c;
    r
  }

  /** The suggested types come out capitalized: "marketing" names a "Marketing Video - ..." project. */
  lemma ProjectNameExample(date: string)
    ensures ProjectName("marketing", date) == "Marketing Video - " + date
  {
    assert Capitalize("marketing") == "Marketing";
  }

  // ---------------------------------------------------------------- transcripts

  /** The concatenated final and interim texts of the segments from `from` on. */
  datatype Assembled = Assembled(final: string, interim: string)

  /**
   * The `onresult` loop: the final segments' texts in order, each followed by a
   * space, and the interim segments' texts in order, run together.
   */
  function Collect(results: seq<Segment>, from: nat): (r: Assembled)
    ensures r.final == Spaced(FinalTexts(results, from))
    ensures r.interim == Concat(InterimTexts(results, from))
    ensures r.final != "" <==> HasFinalFrom(results, from)
    ensures r.final != "" ==> r.final[|r.final| - 1] == ' '
    ensures !HasFinalFrom(results, from) ==> |r.interim| == TextLength(results, from)
    decreases |results| - from
  {
    if from >= |results| then Assembled("", "")
    else
      var rest := Collect(results, from + 1);
      var s := results[from];
      if s.isFinal then
        assert Spaced([s.text] + FinalTexts(results, from + 1)) == s.text + " " + rest.final;
        Assembled(s.text + " " + rest.final, rest.interim)
      else
        assert Concat([s.text] + InterimTexts(results, from + 1)) == s.text + rest.interim;
        Assembled(rest.final, s.text + rest.interim)
  }

  /** Total length of the segment texts from `from` on. */
  function TextLength(results: seq<Segment>, from: nat): nat
    decreases |results| - from
  {
    if from >= |results| then 0 else |results[from].text| + TextLength(results, from + 1)
  }

  /** What one result event leaves behind: the shown transcript and, possibly, a trimmed command. */
  datatype Heard = Heard(transcript: string, command: Option<string>)

  /**
   * The transcript is the final text when there is one, else the interim text;
   * a command is processed only when some segment from `resultIndex` on is final,
   * and it is the final text trimmed.
   */
  function OnResult(results: seq<Segment>, resultIndex: nat): (r: Heard)
    ensures r.command.Some? <==> HasFinalFrom(results, resultIndex)
    ensures r.command.Some? ==> r.transcript == Collect(results, resultIndex).final
                                && r.command.value == Trim(r.transcript)
    ensures r.command.None? ==> r.transcript == Collect(results, resultIndex).interim
    ensures resultIndex >= |results| ==> r == Heard("", None)
  {
    var a := Collect(results, resultIndex);
    var transcript := if a.final != "" then a.final else a.interim;
    Heard(transcript, if a.final != "" then Some(Trim(a.final)) else None)
  }

  /** A single final segment gives its own text, trimmed, as the command. */
  lemma SingleFinalSegment(text: string)
    ensures OnResult([Segment(text, true)], 0) == Heard(text + " ", Some(Trim(text + " ")))
  {
    assert HasFinalFrom([Segment(text, true)], 0) by {
      assert [Segment(text, true)][0].isFinal;
    }
    assert Collect([Segment(text, true)], 1) == Assembled("", "");
  }

  const Placeholder: string := "Listening... speak now"

  /** `updateTranscription`: a blank transcript shows the placeholder, anything else is shown as it is. */
  function Displayed(transcript: string): (r: string)
    ensures r == Placeholder <==> IsBlank(transcript) || transcript == Placeholder
    ensures !IsBlank(transcript) ==> r == transcript
  {
    if IsBlank(transcript) then Placeholder else transcript
  }

  /** Only all-whitespace transcripts are replaced by the placeholder. */
  lemma DisplayedPlaceholderIffSpaces(transcript: string)
    requires transcript != Placeholder
    ensures Displayed(transcript) == Placeholder <==> forall i :: 0 <= i < |transcript| ==> IsSpace(transcript[i])
  {
    BlankIffAllSpace(transcript);
  }

  // ---------------------------------------------------------------- listening

  /** `recognition` present (browser support), `isListening`, `transcript`, and whether the panel is open. */
  datatype State = State(supported: bool, listening: bool, transcript: string, panelOpen: bool)

  datatype Event =
    | StartClicked
    | StopClicked
    | RecognitionEnded
    | RecognitionError(code: string)
    | Results(results: seq<Segment>, resultIndex: nat)
    | PanelToggled
    | PanelClosed
    | CreateClicked

  /** What the handler asks of the outside world besides its state change. */
  datatype Effect = NoEffect | Restart | Shown(reaction: Reaction)

  function StartListening(s: State): (r: State)
    ensures s.supported ==> r == s.(listening := true, transcript := "")
    ensures !s.supported ==> r == s
  {
    if s.supported then s.(listening := true, transcript := "") else s
  }

  function StopListening(s: State): (r: State)
    ensures s.supported ==> r == s.(listening := false)
    ensures !s.supported ==> r == s
  {
    if s.supported then s.(listening := false) else s
  }

  /**
   * One handler run. Recognition events only arise when recognition exists;
   * `onend` restarts iff the flag is still set; "not-allowed" errors stop.
   */
  function Step(s: State, ev: Event): (r: (State, Effect))
    ensures ev.RecognitionEnded? ==> (r.1 == Restart <==> s.supported && s.listening) && r.0 == s
    ensures (ev.StopClicked? || ev.PanelClosed? || ev.CreateClicked?) && s.supported ==> !r.0.listening
    ensures ev.PanelClosed? || ev.CreateClicked? ==> !r.0.panelOpen
    ensures r.0.listening ==> ev.StartClicked? || s.listening
    ensures r.0.supported == s.supported
    ensures r.1.Shown? ==> ev.Results? && HasFinalFrom(ev.results, ev.resultIndex)
    ensures ev.StartClicked? && s.supported ==> r.0 == s.(listening := true, transcript := "") && r.1 == NoEffect
    ensures ev.Results? && s.supported ==> r.0 == s.(transcript := OnResult(ev.results, ev.resultIndex).transcript)
    ensures ev.Results? && s.supported && HasFinalFrom(ev.results, ev.resultIndex) ==>
              r.1 == Shown(ProcessCommand(Trim(Collect(ev.results, ev.resultIndex).final)))
    ensures ev.PanelToggled? && s.panelOpen ==> !r.0.panelOpen && (s.supported ==> !r.0.listening)
    ensures ev.PanelToggled? && !s.panelOpen ==> r.0 == s.(panelOpen := true)
    ensures ev.RecognitionError? && s.supported && ev.code == "not-allowed" ==> !r.0.listening
    ensures ev.RecognitionError? && ev.code != "not-allowed" ==> r.0 == s
    ensures !ev.Results? && !ev.StartClicked? ==> r.0.transcript == s.transcript
    ensures ev.StopClicked? || ev.RecognitionError? ==> r.0.panelOpen == s.panelOpen
  {
    match ev
    case StartClicked => (StartListening(s), NoEffect)
    case StopClicked => (StopListening(s), NoEffect)
    case RecognitionEnded => (s, if s.supported && s.listening then Restart else NoEffect)
    case RecognitionError(code) =>
      (if s.supported && code == "not-allowed" then StopListening(s) else s, NoEffect)
    case Results(results, index) =>
      if !s.supported then (s, NoEffect)
      else
        var heard := OnResult(results, index);
        (s.(transcript := heard.transcript),
         match heard.command
         case Some(c) => Shown(ProcessCommand(c))
         case None => NoEffect)
    case PanelToggled =>
      if !s.panelOpen then (s.(panelOpen := true), NoEffect)
      else (StopListening(s.(panelOpen := false)), NoEffect)
    case PanelClosed => (StopListening(s.(panelOpen := false)), NoEffect)
    case CreateClicked => (StopListening(s.(panelOpen := false)), NoEffect)
  }

  function Run(s: State, events: seq<Event>): (r: State)
    ensures r.supported == s.supported
    decreases |events|
  {
    if |events| == 0 then s else Run(Step(s, events[0]).0, events[1..])
  }

  /** Without speech recognition the flag is never set, whatever happens. */
  lemma {:induction false} UnsupportedNeverListens(s: State, events: seq<Event>)
    requires !s.supported && !s.listening
    ensures !Run(s, events).listening
    decreases |events|
  {
    if |events| > 0 {
      UnsupportedNeverListens(Step(s, events[0]).0, events[1..]);
    }
  }

  /** A session with no start click never begins listening. */
  lemma {:induction false} NoStartNoListening(s: State, events: seq<Event>)
    requires !s.listening
    requires forall i :: 0 <= i < |events| ==> !events[i].StartClicked?
    ensures !Run(s, events).listening
    decreases |events|
  {
    if |events| > 0 {
      NoStartNoListening(Step(s, events[0]).0, events[1..]);
    }
  }
}

=== FILE: effects.dfy ===
/**
 * The small lookup tables of public/js/app.js: the colour-grade filter cycle
 * (`applyColorGrading`), the voice preset table that fills the effect sliders
 * (`applyVoicePreset`) and the playback-rate rule of `applyVoiceEffect`.
 */
module Effects {
  import opened Options

  // ---------------------------------------------------------------- colour grading

  /** The CSS filters `applyColorGrading` cycles through; the last one is the original look. */
  const Filters: seq<string> := [
    "contrast(1.2) saturate(1.3)",
    "sepia(0.3) contrast(1.1)",
    "grayscale(1)",
    "hue-rotate(90deg)",
    "none"
  ]

  /** `Filters.indexOf(f)`: the first position holding `f`, or -1. */
  function IndexOf(f: string): (r: int)
    ensures -1 <= r < |Filters|
    ensures r >= 0 ==> Filters[r] == f && forall j :: 0 <= j < r ==> Filters[j] != f
    ensures r == -1 <==> f !in Filters
  {
    if Filters[0] == f then 0
    else if Filters[1] == f then 1
    else if Filters[2] == f then 2
    else if Filters[3] == f then 3
    else if Filters[4] == f then 4
    else -1
  }

  /** The label shown after grading: "Original" for the last filter, "Cinematic n" otherwise. */
  datatype GradeLabel = Original | Cinematic(n: nat)

  datatype Grade = Grade(filter: string, caption: GradeLabel)

  /**
   * `applyColorGrading`: `None` when no video is previewed; otherwise the
   * filter after the current one (an unset filter counts as "none", an unknown
   * one as position -1), wrapping around after the last.
   */
  function ApplyColorGrading(video: Option<string>): (r: Option<Grade>)
    ensures video.None? <==> r.None?
    ensures r.Some? ==> r.value.filter in Filters
    ensures r.Some? ==> (r.value.caption == Original <==> r.value.filter == "none")
    ensures r.Some? && r.value.filter != "none" ==> r.value.caption == Cinematic(IndexOf(r.value.filter) + 1)
  {
    match video
    case None => None
    case Some(current) =>
      var name := if current == "" then "none" else current;
      var next := (IndexOf(name) + 1) % |Filters|;
      Some(Grade(Filters[next], if next == |Filters| - 1 then Original else Cinematic(next + 1)))
  }

  /** The filter one click on the colour tool moves a previewed video to. */
  function NextFilter(f: string): (r: string)
    ensures r in Filters
  {
    ApplyColorGrading(Some(f)).value.filter
  }

  /**
   * One click moves the filter at position k to position k + 1, and the last
   * one back to the first, so five clicks bring any listed filter back.
   */
  lemma GradeStep(k: nat)
    requires k < |Filters|
    ensures NextFilter(Filters[k]) == Filters[(k + 1) % |Filters|]
  {
    if k == 0 { assert IndexOf(Filters[0]) == 0; }
    else if k == 1 { assert IndexOf(Filters[1]) == 1; }
    else if k == 2 { assert IndexOf(Filters[2]) == 2; }
    else if k == 3 { assert IndexOf(Filters[3]) == 3; }
    else { assert IndexOf(Filters[4]) == 4; }
  }

  /** An unset filter counts as the last ("none") and an unknown one as absent: both go to the first. */
  lemma GradeFromUnlisted(f: string)
    requires f == "" || f !in Filters
    ensures NextFilter(f) == Filters[0]
    ensures ApplyColorGrading(Some(f)).value.caption == Cinematic(1)
  {
  }

  // ---------------------------------------------------------------- voice presets

  /** The four effect sliders: pitch in semitone steps, speed factor, reverb and echo percentages. */
  datatype Sliders = Sliders(pitch: int, speed: real, reverb: int, echo: int)

  const PresetTable: seq<(string, Sliders)> := [
    ("radio", Sliders(2, 1.0, 15, 5)),
    ("robot", Sliders(-8, 0.9, 30, 20)),
    ("chipmunk", Sliders(8, 1.3, 0, 0)),
    ("deep", Sliders(-6, 0.8, 10, 0)),
    ("echo", Sliders(0, 1.0, 40, 60)),
    ("telephone", Sliders(3, 1.0, 5, 0)),
    ("stadium", Sliders(0, 1.0, 80, 40))
  ]

  function PresetFrom(name: string, from: nat): (r: Option<Sliders>)
    ensures r.Some? ==> exists j :: from <= j < |PresetTable| && PresetTable[j] == (name, r.value)
    ensures r.None? <==> forall j :: from <= j < |PresetTable| ==> PresetTable[j].0 != name
    decreases |PresetTable| - from
  {
    if from >= |PresetTable| then None
    else if PresetTable[from].0 == name then Some(PresetTable[from].1)
    else PresetFrom(name, from + 1)
  }

  /** `presets[preset]` guarded by `preset !== 'none'`. */
  function FindPreset(name: string): (r: Option<Sliders>)
    ensures r.Some? <==> exists j :: 0 <= j < |PresetTable| && PresetTable[j].0 == name
    ensures r.Some? ==> exists j :: 0 <= j < |PresetTable| && PresetTable[j] == (name, r.value)
  {
    if name == "none" then None else PresetFrom(name, 0)
  }

  /** Every preset keeps the sliders in range: a positive speed and percentages within 0..100. */
  lemma PresetsInRange(name: string)
    ensures FindPreset(name).Some? ==>
              var p := FindPreset(name).value;
              p.speed > 0.0 && 0 <= p.reverb <= 100 && 0 <= p.echo <= 100 && -12 <= p.pitch <= 12
  {
  }

  /** `applyVoicePreset`: a known preset sets all four sliders; anything else leaves them alone. */
  function ApplyVoicePreset(s: Sliders, name: string): (r: Sliders)
    ensures FindPreset(name).Some? ==> r == FindPreset(name).value
    ensures FindPreset(name).None? ==> r == s
    ensures name == "none" ==> r == s
  {
    match FindPreset(name)
    case Some(p) => p
    case None => s
  }

  // ---------------------------------------------------------------- playback rate

  /** The outcome of `applyVoiceEffect`. */
  datatype EffectOutcome =
    | NoPresetSelected
    | NoVideo
    | Rate(rate: real)
    | NameOnly

  /** `presetSettings`: the only presets `applyVoiceEffect` turns into a base playback rate. */
  function BaseRate(name: string): (r: Option<real>)
    ensures r.Some? <==> name == "radio" || name == "robot" || name == "deep"
    ensures name == "radio" ==> r == Some(1.0)
    ensures name == "robot" ==> r == Some(0.9)
    ensures name == "deep" ==> r == Some(0.8)
    ensures r.Some? ==> 0.0 < r.value <= 1.0
  {
    if name == "radio" then Some(1.0)
    else if name == "robot" then Some(0.9)
    else if name == "deep" then Some(0.8)
    else None
  }

  /** 5% per pitch step. */
  const PitchStep: real := 0.05

  /**
   * `applyVoiceEffect`: a missing or "none" preset is refused before the
   * video is even looked at; then a missing video; then a preset with a base
   * rate sets `rate * (1 + pitch * 0.05)`; any other preset only reports itself.
   */
  function ApplyVoiceEffect(preset: Option<string>, pitch: real, hasVideo: bool): (r: EffectOutcome)
    ensures r == NoPresetSelected <==> preset.None? || preset.value == "" || preset.value == "none"
    ensures r == NoVideo <==> !(preset.None? || preset.value == "" || preset.value == "none") && !hasVideo
    ensures preset.Some? && preset.value != "" && preset.value != "none" && hasVideo ==>
              (r.Rate? <==> BaseRate(preset.value).Some?) && (r.NameOnly? <==> BaseRate(preset.value).None?)
    ensures r.Rate? ==> BaseRate(preset.value).Some?
    ensures r.Rate? ==> r.rate == BaseRate(preset.value).value * (1.0 + PitchStep * pitch)
    ensures r.Rate? ==> (r.rate > 0.0 <==> pitch > -20.0)
  {
    match preset
    case None => NoPresetSelected
    case Some(name) =>
      if name == "" || name == "none" then NoPresetSelected
      else if !hasVideo then NoVideo
      else match BaseRate(name)
        case Some(base) => Rate(base * (1.0 + pitch * PitchStep))
        case None => NameOnly
  }

  /** Raising the pitch slider never lowers the playback rate. */
  lemma RateMonotoneInPitch(name: string, p1: real, p2: real)
    requires p1 <= p2
    requires ApplyVoiceEffect(Some(name), p1, true).Rate?
    ensures ApplyVoiceEffect(Some(name), p2, true).Rate?
    ensures ApplyVoiceEffect(Some(name), p1, true).rate <= ApplyVoiceEffect(Some(name), p2, true).rate
  {
    var base := BaseRate(name).value;
    assert base * (1.0 + p1 * PitchStep) <= base * (1.0 + p2 * PitchStep);
  }

  /** Presets the slider table knows but `applyVoiceEffect` does not ("chipmunk", "echo", ...) change no rate. */
  lemma SliderOnlyPresetsKeepRate()
    ensures ApplyVoiceEffect(Some("chipmunk"), 3.0, true) == NameOnly
    ensures ApplyVoiceEffect(Some("stadium"), 0.0, true) == NameOnly
    ensures ApplyVoiceEffect(Some("robot"), 0.0, true) == Rate(0.9)
  {
  }
}

=== FILE: history.dfy ===
/**
 * The editor's linear undo log (`state.history` and `state.historyIndex` in
 * public/js/app.js): a sequence of snapshots and the position of the current one.
 * Recording a new snapshot while positioned before the end first drops every
 * later entry, so the log is a single branch, never a tree.
 */
module History {

  datatype Log<T> = Log(entries: seq<T>, index: int) {

    /** An empty log sits at -1; otherwise the index names one of its entries. */
    ghost predicate Valid() {
      if |entries| == 0 then index == -1 else 0 <= index < |entries|
    }

    predicate CanUndo() { index > 0 }

    predicate CanRedo() { index < |entries| - 1 }

    predicate AtEnd() { index == |entries| - 1 }
  }

  /** The log before anything is recorded (`history: []`, `historyIndex: -1`). */
  function Empty<T>(): (r: Log<T>)
    ensures r.Valid() && r.AtEnd() && !r.CanUndo() && !r.CanRedo()
  {
    Log([], -1)
  }

  /** Record `x`: keep the entries up to the current one, append `x`, and move to it. */
  function Push<T>(h: Log<T>, x: T): (r: Log<T>)
    requires h.Valid()
    ensures r.Valid() && r.AtEnd() && !r.CanRedo()
    ensures r.entries == h.entries[..h.index + 1] + [x]
    ensures r.entries[r.index] == x
  {
    var kept := if h.index < |h.entries| - 1 then h.entries[..h.index + 1] else h.entries;
    Log(kept + [x], h.index + 1)
  }

  /** Step one entry back; the entries themselves are left alone. */
  function Back<T>(h: Log<T>): (r: Log<T>)
    requires h.Valid() && h.CanUndo()
    ensures r.Valid() && r.CanRedo()
    ensures r.entries == h.entries && r.index == h.index - 1
  {
    h.(index := h.index - 1)
  }

  /** Step one entry forward; the entries themselves are left alone. */
  function Forward<T>(h: Log<T>): (r: Log<T>)
    requires h.Valid() && h.CanRedo()
    ensures r.Valid() && r.CanUndo()
    ensures r.entries == h.entries && r.index == h.index + 1
  {
    h.(index := h.index + 1)
  }

  /** Undo followed by redo is the identity on the log. */
  lemma BackThenForward<T>(h: Log<T>)
    requires h.Valid() && h.CanUndo()
    ensures Forward(Back(h)) == h
  {
  }

  /** Redo followed by undo is the identity on the log. */
  lemma ForwardThenBack<T>(h: Log<T>)
    requires h.Valid() && h.CanRedo()
    ensures Back(Forward(h)) == h
  {
  }

  /**
   * Recording after an undo truncates: the entry that was undone is no longer
   * in the log and there is nothing left to redo.
   */
  lemma PushAfterBackDiscardsUndone<T>(h: Log<T>, x: T)
    requires h.Valid() && h.CanUndo()
    ensures Push(Back(h), x).entries == h.entries[..h.index] + [x]
    ensures !Push(Back(h), x).CanRedo()
  {
  }

  /** The branch example: `[a, b, c]` positioned at `b`, then recording `d`, gives `[a, b, d]`. */
  lemma BranchExample<T>(a: T, b: T, c: T, d: T)
    ensures Push(Log([a, b, c], 1), d) == Log([a, b, d], 2)
  {
    assert [a, b, c][..2] + [d] == [a, b, d];
  }

  /** Record every element of `xs` in order. */
  function PushAll<T>(h: Log<T>, xs: seq<T>): (r: Log<T>)
    requires h.Valid()
    ensures r.Valid()
    decreases |xs|
  {
    if |xs| == 0 then h else PushAll(Push(h, xs[0]), xs[1..])
  }

  /**
   * Recording at the end of the log never truncates: after `n` recordings the
   * log has grown by exactly those `n` entries and sits on the last one.
   */
  lemma {:induction false} PushAllAtEndAppends<T>(h: Log<T>, xs: seq<T>)
    requires h.Valid() && h.AtEnd()
    ensures PushAll(h, xs) == Log(h.entries + xs, h.index + |xs|)
    decreases |xs|
  {
    if |xs| > 0 {
      var h1 := Push(h, xs[0]);
      assert h1 == Log(h.entries + [xs[0]], h.index + 1);
      PushAllAtEndAppends(h1, xs[1..]);
      assert h.entries + [xs[0]] + xs[1..] == h.entries + xs;
    }
  }
}

=== FILE: options.dfy ===
/** The optional value used for lookups that may miss (`Array.find`, object keys). */
module Options {

  datatype Option<+T> = None | Some(value: T) {

    /** The carried value, or `default` when there is none (JavaScript's `x || default`). */
    function GetOr(default: T): T {
      match this
      case Some(v) => v
      case None => default
    }
  }
}

=== FILE: password.dfy ===
/**
 * public/js/password-security.js: the strength meter shown while a signup
 * password is typed, and the check run when the signup form is submitted.
 */
module Password {
  import opened Text

  const MinLength: nat := 8
  const LongLength: nat := 12
  const MaxStrength: nat := 4
  const BarCount: nat := 4

  ghost predicate HasLower(p: string) { exists i :: 0 <= i < |p| && IsLower(p[i]) }

  ghost predicate HasUpper(p: string) { exists i :: 0 <= i < |p| && IsUpper(p[i]) }

  /** `/\d/`: an ASCII digit somewhere. */
  ghost predicate HasDigit(p: string) { exists i :: 0 <= i < |p| && IsDigit(p[i]) }

  /** `/[^a-zA-Z\d]/`: a character that is neither an ASCII letter nor a digit. */
  ghost predicate HasSymbol(p: string) { exists i :: 0 <= i < |p| && !IsLetter(p[i]) && !IsDigit(p[i]) }

  /** `/[^a-zA-Z]/`: a character that is not an ASCII letter. */
  ghost predicate HasNonLetter(p: string) { exists i :: 0 <= i < |p| && !IsLetter(p[i]) }

  function Bit(b: bool): nat { if b then 1 else 0 }

  /** The five independent criteria the meter counts, one point each. */
  ghost function Criteria(p: string): nat {
    Bit(|p| >= MinLength) + Bit(|p| >= LongLength) + Bit(HasLower(p) && HasUpper(p))
    + Bit(HasDigit(p)) + Bit(HasSymbol(p))
  }

  /**
   * `checkPasswordStrength`'s raw score, computed the way an implementation
   * would: one pass over the characters noting which classes occur.
   */
  method Score(p: string) returns (score: nat)
    ensures score == Criteria(p)
    ensures score <= 5
  {
    var lower, upper, digit, symbol := false, false, false, false;
    var i := 0;
    while i < |p|
      invariant 0 <= i <= |p|
      invariant lower <==> exists j :: 0 <= j < i && IsLower(p[j])
      invariant upper <==> exists j :: 0 <= j < i && IsUpper(p[j])
      invariant digit <==> exists j :: 0 <= j < i && IsDigit(p[j])
      invariant symbol <==> exists j :: 0 <= j < i && !IsLetter(p[j]) && !IsDigit(p[j])
    {
      var c := p[i];
      if IsLower(c) {
        lower := true;
      } else if IsUpper(c) {
        upper := true;
      } else if IsDigit(c) {
        digit := true;
      } else {
        symbol := true;
      }
      i := i + 1;
    }
    score := Bit(|p| >= MinLength) + Bit(|p| >= LongLength) + Bit(lower && upper) + Bit(digit) + Bit(symbol);
  }

  /** `Math.min(4, strength)`: the index into the label and colour tables. */
  function Normalize(score: nat): (s: nat)
    ensures s <= MaxStrength && s <= score
    ensures score <= MaxStrength ==> s == score
  {
    if score < MaxStrength then score else MaxStrength
  }

  const Labels: seq<string> := ["Weak", "Fair", "Good", "Strong", "Very Strong"]
  const Colors: seq<string> := ["#ff4444", "#ff8800", "#ffbb00", "#00cc66", "#00ff88"]

  /** The label and colour for a score: every normalized score indexes both tables. */
  function Feedback(score: nat): (r: (string, string))
    ensures r.0 in Labels && r.1 in Colors
    ensures score == 0 ==> r == ("Weak", "#ff4444")
    ensures 1 <= score <= 3 ==> r == (Labels[score], Colors[score])
    ensures score >= MaxStrength ==> r == ("Very Strong", "#00ff88")
  {
    var s := Normalize(score);
    (Labels[s], Colors[s])
  }

  /** The empty password scores nothing; meeting all five criteria still tops out at "Very Strong". */
  lemma ScoreExtremes(p: string)
    ensures |p| == 0 ==> Criteria(p) == 0
    ensures Criteria(p) == 5 ==> Normalize(Criteria(p)) == MaxStrength && Feedback(Criteria(p)).0 == "Very Strong"
  {
  }

  /** A password of twelve or more characters scores at least two (both length criteria). */
  lemma LongPasswordsScoreTwo(p: string)
    requires |p| >= LongLength
    ensures Criteria(p) >= 2
  {
  }

  /** Typing more characters never lowers the score: every criterion met by a prefix stays met. */
  lemma ScoreMonotone(p: string, q: string)
    ensures Criteria(p) <= Criteria(p + q)
  {
    var pq := p + q;
    if HasLower(p) { var i :| 0 <= i < |p| && IsLower(p[i]); assert pq[i] == p[i]; }
    if HasUpper(p) { var i :| 0 <= i < |p| && IsUpper(p[i]); assert pq[i] == p[i]; }
    if HasDigit(p) { var i :| 0 <= i < |p| && IsDigit(p[i]); assert pq[i] == p[i]; }
    if HasSymbol(p) { var i :| 0 <= i < |p| && !IsLetter(p[i]) && !IsDigit(p[i]); assert pq[i] == p[i]; }
  }

  /** `showPasswordStrengthFeedback`: bar i of the four takes the colour iff `i <= strength`. */
  function Bars(strength: nat): (r: seq<bool>)
    requires strength <= MaxStrength
    ensures |r| == BarCount
    ensures r[0]
    ensures forall i :: 0 <= i < |r| ==> (r[i] <==> i <= strength)
    ensures strength >= BarCount - 1 ==> forall i :: 0 <= i < |r| ==> r[i]
  {
    seq(BarCount, i => i <= strength)
  }

  /** Number of coloured bars. */
  function Lit(bars: seq<bool>): nat
    decreases |bars|
  {
    if |bars| == 0 then 0 else Bit(bars[|bars| - 1]) + Lit(bars[..|bars| - 1])
  }

  /** The first n bars hold min(n, strength + 1) coloured ones. */
  lemma {:induction false} LitPrefix(strength: nat, n: nat)
    requires strength <= MaxStrength && n <= BarCount
    ensures Lit(Bars(strength)[..n]) == if strength + 1 < n then strength + 1 else n
    decreases n
  {
    if n > 0 {
      var b := Bars(strength);
      assert b[..n][..n - 1] == b[..n - 1];
      LitPrefix(strength, n - 1);
    }
  }

  /** One more coloured bar than the strength, at most four: "Weak" lights one, "Strong" and "Very Strong" all. */
  lemma LitBars(strength: nat)
    requires strength <= MaxStrength
    ensures Lit(Bars(strength)) == if strength + 1 < BarCount then strength + 1 else BarCount
  {
    LitPrefix(strength, BarCount);
    assert Bars(strength)[..BarCount] == Bars(strength);
  }

  datatype Verdict = Accept | TooShort | NeedsDigitOrSymbol

  /**
   * The signup submit handler: too short is refused first; then a password
   * with neither a digit nor any non-letter is refused; otherwise it goes through.
   */
  method ValidateSignup(p: string) returns (v: Verdict)
    ensures v == TooShort <==> |p| < MinLength
    ensures v == NeedsDigitOrSymbol <==> |p| >= MinLength && forall i :: 0 <= i < |p| ==> IsLetter(p[i])
    ensures v == Accept <==> |p| >= MinLength && HasNonLetter(p)
  {
    if |p| < MinLength {
      return TooShort;
    }
    var i := 0;
    var digit, nonLetter := false, false;
    while i < |p|
      invariant 0 <= i <= |p|
      invariant digit <==> exists j :: 0 <= j < i && IsDigit(p[j])
      invariant nonLetter <==> exists j :: 0 <= j < i && !IsLetter(p[j])
    {
      if IsDigit(p[i]) {
        digit := true;
      }
      if !IsLetter(p[i]) {
        nonLetter := true;
      }
      i := i + 1;
    }
    if !digit && !nonLetter {
      return NeedsDigitOrSymbol;
    }
    return Accept;
  }

  /** The digit test is subsumed: every digit is already a non-letter. */
  lemma DigitIsNonLetter(p: string)
    ensures HasDigit(p) ==> HasNonLetter(p)
  {
  }

  /**
   * Whatever the submit check accepts scores at least two on the meter
   * ("Good" or better): eight characters, and a digit or a symbol.
   */
  lemma AcceptedScoresGood(p: string)
    requires |p| >= MinLength && HasNonLetter(p)
    ensures Criteria(p) >= 2
    ensures Feedback(Criteria(p)).0 in ["Good", "Strong", "Very Strong"]
  {
    var i :| 0 <= i < |p| && !IsLetter(p[i]);
    if IsDigit(p[i]) {
      assert HasDigit(p);
    } else {
      assert HasSymbol(p);
    }
  }

  /** Whether a password field shows its characters. */
  datatype Visibility = Masked | Revealed

  /** The icon on the toggle button: an eye while masked, a lock while revealed. */
  function Icon(v: Visibility): string {
    match v
    case Masked => "\U{1F441}\U{FE0F}"
    case Revealed => "\U{1F512}"
  }

  /** `addPasswordToggle`'s click handler: switch the field's type and the icon with it. */
  function Toggle(v: Visibility): (r: Visibility)
    ensures r != v
    ensures Icon(r) != Icon(v)
  {
    if v == Masked then Revealed else Masked
  }

  /** Two clicks bring the field and its icon back to where they were. */
  lemma ToggleTwice(v: Visibility)
    ensures Toggle(Toggle(v)) == v
  {
  }
}

=== FILE: search.dfy ===
/**
 * public/js/voice-search.js: the project search box of the dashboard, fed
 * either by typing or by a one-shot speech recognition session.
 */
module Search {
  import opened Options
  import opened Text
  import opened Speech

  // ---------------------------------------------------------------- filtering

  /**
   * A project card: the text of its `h3` / `.project-title` element, if it has
   * one, and its whole text content (which includes the title).
   */
  datatype Card = Card(title: Option<string>, text: string)

  /** A card stays visible when its lower-cased title or text contains the lower-cased query. */
  predicate Matches(c: Card, query: string) {
    Contains(Lower(c.title.GetOr("")), Lower(query)) || Contains(Lower(c.text), Lower(query))
  }

  /** Number of `true` entries. */
  function CountVisible(visible: seq<bool>): (n: nat)
    ensures n <= |visible|
    decreases |visible|
  {
    if |visible| == 0 then 0
    else (if visible[|visible| - 1] then 1 else 0) + CountVisible(visible[..|visible| - 1])
  }

  lemma CountAppend(visible: seq<bool>, b: bool)
    ensures CountVisible(visible + [b]) == CountVisible(visible) + (if b then 1 else 0)
  {
    assert (visible + [b])[..|visible|] == visible;
  }

  /** The filtering loop of `performSearch`: which cards match, and how many. */
  method Filter(cards: seq<Card>, query: string) returns (visible: seq<bool>, count: nat)
    ensures |visible| == |cards|
    ensures forall i :: 0 <= i < |cards| ==> (visible[i] <==> Matches(cards[i], query))
    ensures count == CountVisible(visible)
  {
    visible := [];
    count := 0;
    var i := 0;
    while i < |cards|
      invariant 0 <= i <= |cards| && |visible| == i
      invariant forall j :: 0 <= j < i ==> (visible[j] <==> Matches(cards[j], query))
      invariant count == CountVisible(visible)
    {
      var shown := Matches(cards[i], query);
      CountAppend(visible, shown);
      visible := visible + [shown];
      if shown {
        count := count + 1;
      }
      i := i + 1;
    }
  }

  /**
   * `performSearch`: a blank query shows every card and counts nothing;
   * otherwise each card is shown iff it matches the (untrimmed) query, and the
   * count is the number shown.
   */
  method PerformSearch(cards: seq<Card>, query: string) returns (visible: seq<bool>, count: Option<nat>)
    ensures |visible| == |cards|
    ensures IsBlank(query) ==> count.None? && forall i :: 0 <= i < |cards| ==> visible[i]
    ensures !IsBlank(query) ==> forall i :: 0 <= i < |cards| ==> (visible[i] <==> Matches(cards[i], query))
    ensures !IsBlank(query) ==> count == Some(CountVisible(visible))
  {
    if IsBlank(query) {
      return seq(|cards|, _ => true), None;
    }
    var n;
    visible, n := Filter(cards, query);
    count := Some(n);
  }

  /** Search ignores letter case in both the query and the cards. */
  lemma MatchIgnoresCase(c: Card, q1: string, q2: string)
    requires Lower(q1) == Lower(q2)
    ensures Matches(c, q1) <==> Matches(c, q2)
  {
  }

  /** Typing further characters only hides cards: a card matching the longer query matched the shorter one. */
  lemma LongerQueryNarrows(c: Card, q: string, more: string)
    requires Matches(c, q + more)
    ensures Matches(c, q)
  {
    LowerAppend(q, more);
    if Contains(Lower(c.title.GetOr("")), Lower(q + more)) {
      ContainsExtension(Lower(c.title.GetOr("")), Lower(q), Lower(more));
    } else {
      ContainsExtension(Lower(c.text), Lower(q), Lower(more));
    }
  }

  /** A query holding any non-space character is searched for rather than ignored. */
  lemma NonSpaceNotBlank(q: string, i: nat)
    requires i < |q| && !IsSpace(q[i])
    ensures !IsBlank(q)
  {
    BlankIffAllSpace(q);
  }

  /** " cat" is not blank: trimming leaves "cat". */
  lemma PaddedQueryNotBlank()
    ensures !IsBlank(" cat")
  {
    var q := " cat";
    assert q[1] == 'c';
    NonSpaceNotBlank(q, 1);
  }

  /** The query is not trimmed: " cat" does not find a card whose whole text is "cat", though "cat" does. */
  lemma SurroundingSpacesMatter()
    ensures Matches(Card(None, "cat"), "cat")
    ensures !Matches(Card(None, "cat"), " cat")
  {
    var c := Card(None, "cat");
    assert Lower("") == "";
    assert Lower("cat") == "cat";
    assert Lower(" cat") == " cat";
    assert OccursAt("cat", "cat", 0);
    OccurrenceIsFound("cat", "cat", 0);
    ContainsIffOccurs("cat", " cat");
    ContainsIffOccurs("", " cat");
  }

  // ---------------------------------------------------------------- listening

  /** `recognition` present, `isListening`, and the search box's value and placeholder. */
  datatype State = State(supported: bool, listening: bool, input: string, placeholder: string)

  /** The box's placeholder while listening, and once listening stops. */
  const ListeningPlaceholder: string := "\U{1F3A4} Listening..."
  const IdlePlaceholder: string := "\U{1F50D} Search projects..."

  datatype Event =
    | Clicked
    | Typed(value: string)
    | Results(results: seq<Segment>, resultIndex: nat)
    | RecognitionError
    | RecognitionEnded

  /** The placeholder tells whether the box is listening. */
  predicate PlaceholderInSync(s: State) {
    s.placeholder == if s.listening then ListeningPlaceholder else IdlePlaceholder
  }

  function StartListening(s: State): (r: State)
    ensures s.supported ==> r == s.(listening := true, placeholder := ListeningPlaceholder)
    ensures !s.supported ==> r == s
  {
    if s.supported then s.(listening := true, placeholder := ListeningPlaceholder) else s
  }

  function StopListening(s: State): (r: State)
    ensures s.supported ==> r == s.(listening := false, placeholder := IdlePlaceholder)
    ensures !s.supported ==> r == s
  {
    if s.supported then s.(listening := false, placeholder := IdlePlaceholder) else s
  }

  /**
   * The `onresult` loop from index `i` on: every segment's text goes into the
   * box; a final one is also searched for and stops listening, and the loop
   * carries on with the remaining segments.
   */
  function ApplyResults(s: State, results: seq<Segment>, i: nat): (r: (State, seq<string>))
    requires s.supported
    ensures r.0.supported
    ensures i < |results| ==> r.0.input == results[|results| - 1].text
    ensures i >= |results| ==> r.0 == s
    ensures HasFinalFrom(results, i) ==> !r.0.listening
    ensures !HasFinalFrom(results, i) ==> r.0.listening == s.listening && |r.1| == 0
    ensures PlaceholderInSync(s) ==> PlaceholderInSync(r.0)
    decreases |results| - i
  {
    if i >= |results| then (s, [])
    else
      var seg := results[i];
      var s1 := if seg.isFinal then StopListening(s.(input := seg.text)) else s.(input := seg.text);
      var rest := ApplyResults(s1, results, i + 1);
      (rest.0, (if seg.isFinal then [seg.text] else []) + rest.1)
  }

  /** One handler run, with the queries it searched for, in order. */
  function Step(s: State, ev: Event): (r: (State, seq<string>))
    ensures r.0.supported == s.supported
    ensures ev.Clicked? && s.supported ==> r.0.listening == !s.listening && |r.1| == 0
    ensures ev.Typed? ==> r.0 == s.(input := ev.value) && r.1 == [ev.value]
    ensures (ev.RecognitionError? || ev.RecognitionEnded?) && s.supported ==> !r.0.listening
    ensures !s.supported ==> r.0.listening == s.listening
    ensures ev.Results? && s.supported ==> r == ApplyResults(s, ev.results, ev.resultIndex)
    ensures ev.Results? && !s.supported ==> r == (s, [])
    ensures !ev.Typed? && !ev.Results? ==> r.0.input == s.input && r.1 == []
    ensures PlaceholderInSync(s) ==> PlaceholderInSync(r.0)
  {
    match ev
    case Clicked => (if s.listening then StopListening(s) else StartListening(s), [])
    case Typed(value) => (s.(input := value), [value])
    case Results(results, index) => if s.supported then ApplyResults(s, results, index) else (s, [])
    case RecognitionError => (StopListening(s), [])
    case RecognitionEnded => (StopListening(s), [])
  }

  /** The searches a result event triggers are exactly its final texts, in order. */
  lemma {:induction false} SearchesAreFinalTexts(s: State, results: seq<Segment>, i: nat)
    requires s.supported
    ensures ApplyResults(s, results, i).1 == FinalTexts(results, i)
    decreases |results| - i
  {
    if i < |results| {
      var seg := results[i];
      var s1 := if seg.isFinal then StopListening(s.(input := seg.text)) else s.(input := seg.text);
      SearchesAreFinalTexts(s1, results, i + 1);
    }
  }

  /** Two clicks on the microphone button bring the flag back where it was. */
  lemma ClickTwiceRestores(s: State)
    ensures Step(Step(s, Clicked).0, Clicked).0.listening == s.listening
  {
  }

  /** A session: the final state and every query searched for, in order. */
  function Run(s: State, events: seq<Event>): (r: (State, seq<string>))
    ensures r.0.supported == s.supported
    decreases |events|
  {
    if |events| == 0 then (s, [])
    else
      var first := Step(s, events[0]);
      var rest := Run(first.0, events[1..]);
      (rest.0, first.1 + rest.1)
  }

  /** Over a whole session the placeholder keeps telling whether the box is listening. */
  lemma {:induction false} RunKeepsPlaceholderInSync(s: State, events: seq<Event>)
    requires PlaceholderInSync(s)
    ensures PlaceholderInSync(Run(s, events).0)
    decreases |events|
  {
    if |events| > 0 {
      RunKeepsPlaceholderInSync(Step(s, events[0]).0, events[1..]);
    }
  }

  /**
   * Without speech recognition the flag is never set, and every search run is
   * a value typed into the box.
   */
  lemma {:induction false} UnsupportedSearchesOnlyTyped(s: State, events: seq<Event>)
    requires !s.supported && !s.listening
    ensures !Run(s, events).0.listening
    ensures forall q :: q in Run(s, events).1 ==> Typed(q) in events
    decreases |events|
  {
    if |events| > 0 {
      var first := Step(s, events[0]);
      UnsupportedSearchesOnlyTyped(first.0, events[1..]);
      forall q | q in Run(s, events).1
        ensures Typed(q) in events
      {
        if q in first.1 {
          assert events[0] == Typed(q);
        } else {
          assert Typed(q) in events[1..];
        }
      }
    }
  }
}

=== FILE: speech.dfy ===
/** What a speech-recognition `result` event carries, as far as the scripts read it. */
module Speech {

  /** `event.results[i]`: the first alternative's transcript and whether it is final. */
  datatype Segment = Segment(text: string, isFinal: bool)

  /** Some final segment at or after `from`. */
  ghost predicate HasFinalFrom(results: seq<Segment>, from: nat) {
    exists i :: from <= i < |results| && results[i].isFinal
  }

  /** The texts of the final segments from `i` on, in order. */
  function FinalTexts(results: seq<Segment>, i: nat): seq<string>
    decreases |results| - i
  {
    if i >= |results| then []
    else if results[i].isFinal then [results[i].text] + FinalTexts(results, i + 1)
    else FinalTexts(results, i + 1)
  }

  /** The texts of the interim (non-final) segments from `i` on, in order. */
  function InterimTexts(results: seq<Segment>, i: nat): seq<string>
    decreases |results| - i
  {
    if i >= |results| then []
    else if results[i].isFinal then InterimTexts(results, i + 1)
    else [results[i].text] + InterimTexts(results, i + 1)
  }

  /** The texts one after another, each followed by a space. */
  function Spaced(texts: seq<string>): string
    decreases |texts|
  {
    if |texts| == 0 then "" else texts[0] + " " + Spaced(texts[1..])
  }

  /** The texts one after another, with nothing between them. */
  function Concat(texts: seq<string>): string
    decreases |texts|
  {
    if |texts| == 0 then "" else texts[0] + Concat(texts[1..])
  }
}

=== FILE: text.dfy ===
/**
 * The string primitives the browser scripts rely on, restated over `seq<char>`:
 * `toLowerCase` (ASCII letters only), `includes`, `startsWith` and `trim`.
 */
module Text {

  predicate IsUpper(c: char) { 'A' <= c <= 'Z' }

  predicate IsLower(c: char) { 'a' <= c <= 'z' }

  predicate IsDigit(c: char) { '0' <= c <= '9' }

  predicate IsLetter(c: char) { IsUpper(c) || IsLower(c) }

  function LowerChar(c: char): char {
    if IsUpper(c) then (c as int + 32) as char else c
  }

  /** `s.toLowerCase()` restricted to the ASCII capitals. */
  function Lower(s: string): string {
    seq(|s|, i requires 0 <= i < |s| => LowerChar(s[i]))
  }

  /** Lower-casing leaves no capital behind, so doing it twice changes nothing. */
  lemma LowerIdempotent(s: string)
    ensures forall i :: 0 <= i < |s| ==> !IsUpper(Lower(s)[i])
    ensures Lower(Lower(s)) == Lower(s)
  {
  }

  predicate IsPrefix(p: string, s: string) {
    |p| <= |s| && s[..|p|] == p
  }

  /** `s.startsWith(p)`. */
  predicate StartsWith(s: string, p: string) {
    IsPrefix(p, s)
  }

  /** `sub` sits in `s` starting at position `i`. */
  ghost predicate OccursAt(s: string, sub: string, i: int) {
    0 <= i && i + |sub| <= |s| && s[i..i + |sub|] == sub
  }

  /** `s.includes(sub)`: a scan that tries every start position in turn. */
  predicate Contains(s: string, sub: string)
    decreases |s|
  {
    IsPrefix(sub, s) || (|s| > 0 && Contains(s[1..], sub))
  }

  /** An occurrence at any position is found by the scan. */
  lemma {:induction false} OccurrenceIsFound(s: string, sub: string, i: int)
    requires OccursAt(s, sub, i)
    ensures Contains(s, sub)
    decreases i
  {
    if i == 0 {
      assert s[..|sub|] == sub;
    } else {
      assert s[1..][i - 1..i - 1 + |sub|] == s[i..i + |sub|];
      OccurrenceIsFound(s[1..], sub, i - 1);
    }
  }

  /** The scan agrees with the positional definition of containment. */
  lemma {:induction false} ContainsIffOccurs(s: string, sub: string)
    ensures Contains(s, sub) <==> exists i :: OccursAt(s, sub, i)
    decreases |s|
  {
    if exists i :: OccursAt(s, sub, i) {
      var i :| OccursAt(s, sub, i);
      OccurrenceIsFound(s, sub, i);
    }
    if Contains(s, sub) {
      if IsPrefix(sub, s) {
        assert OccursAt(s, sub, 0);
      } else {
        ContainsIffOccurs(s[1..], sub);
        var i :| OccursAt(s[1..], sub, i);
        assert s[1..][i..i + |sub|] == s[i + 1..i + 1 + |sub|];
        assert OccursAt(s, sub, i + 1);
      }
    }
  }

  /** Whatever contains `a + b` contains `a`: lengthening a search string only narrows its matches. */
  lemma ContainsExtension(s: string, a: string, b: string)
    requires Contains(s, a + b)
    ensures Contains(s, a)
  {
    ContainsIffOccurs(s, a + b);
    var i :| OccursAt(s, a + b, i);
    assert s[i..i + |a|] == (a + b)[..|a|] == a;
    OccurrenceIsFound(s, a, i);
  }

  /** Lower-casing works character by character, so it distributes over concatenation. */
  lemma LowerAppend(a: string, b: string)
    ensures Lower(a + b) == Lower(a) + Lower(b)
  {
  }

  /** The characters `String.prototype.trim` removes: ECMAScript WhiteSpace and LineTerminator. */
  predicate IsSpace(c: char) {
    || c == '\t' || c == '\n' || c == '\U{B}' || c == '\U{C}' || c == '\r' || c == ' '
    || c == '\U{A0}' || c == '\U{1680}' || ('\U{2000}' <= c <= '\U{200A}')
    || c == '\U{2028}' || c == '\U{2029}' || c == '\U{202F}' || c == '\U{205F}'
    || c == '\U{3000}' || c == '\U{FEFF}'
  }

  function TrimStart(s: string): (r: string)
    ensures |r| <= |s| && r == s[|s| - |r|..]
    ensures forall i :: 0 <= i < |s| - |r| ==> IsSpace(s[i])
    ensures |r| > 0 ==> !IsSpace(r[0])
    decreases |s|
  {
    if |s| > 0 && IsSpace(s[0]) then TrimStart(s[1..]) else s
  }

  function TrimEnd(s: string): (r: string)
    ensures |r| <= |s| && r == s[..|r|]
    ensures forall i :: |r| <= i < |s| ==> IsSpace(s[i])
    ensures |r| > 0 ==> !IsSpace(r[|r| - 1])
    decreases |s|
  {
    if |s| > 0 && IsSpace(s[|s| - 1]) then TrimEnd(s[..|s| - 1]) else s
  }

  /** `r` is the slice of `s` at `a`, with nothing but white space before and after it. */
  ghost predicate SurroundedBySpace(s: string, r: string, a: int) {
    && 0 <= a && a + |r| <= |s| && r == s[a..a + |r|]
    && (forall i :: 0 <= i < a ==> IsSpace(s[i]))
    && (forall i :: a + |r| <= i < |s| ==> IsSpace(s[i]))
  }

  /**
   * `s.trim()`: the slice of `s` left once the white space before and after it
   * is removed; it neither starts nor ends with white space.
   */
  function Trim(s: string): (r: string)
    ensures |r| <= |s|
    ensures |r| > 0 ==> !IsSpace(r[0]) && !IsSpace(r[|r| - 1])
    ensures exists a :: SurroundedBySpace(s, r, a)
  {
    TrimIsSlice(s);
    TrimEnd(TrimStart(s))
  }

  /** The two trims together cut white space off both ends of one slice of `s`. */
  lemma TrimIsSlice(s: string)
    ensures SurroundedBySpace(s, TrimEnd(TrimStart(s)), |s| - |TrimStart(s)|)
  {
    SpacedPrefixOfSuffix(s, TrimStart(s), TrimEnd(TrimStart(s)));
  }

  /**
   * Cutting white space off the front of `s`, giving `t`, and then off the
   * back of `t`, giving `r`, leaves `r` as a slice of `s` between white space.
   */
  lemma SpacedPrefixOfSuffix(s: string, t: string, r: string)
    requires |t| <= |s| && t == s[|s| - |t|..]
    requires forall i :: 0 <= i < |s| - |t| ==> IsSpace(s[i])
    requires |r| <= |t| && r == t[..|r|]
    requires forall i :: |r| <= i < |t| ==> IsSpace(t[i])
    ensures SurroundedBySpace(s, r, |s| - |t|)
  {
    var a := |s| - |t|;
    forall i | a + |r| <= i < |s|
      ensures IsSpace(s[i])
    {
      assert s[i] == t[i - a];
    }
  }

  /** `!s.trim()`: the string is empty once trimmed. */
  predicate IsBlank(s: string) {
    |Trim(s)| == 0
  }

  /** A string is blank exactly when every one of its characters is white space. */
  lemma BlankIffAllSpace(s: string)
    ensures IsBlank(s) <==> forall i :: 0 <= i < |s| ==> IsSpace(s[i])
  {
    var t := TrimStart(s);
    if !forall i :: 0 <= i < |s| ==> IsSpace(s[i]) {
      var k :| 0 <= k < |s| && !IsSpace(s[k]);
      assert t[k - (|s| - |t|)] == s[k];
    }
  }
}

=== FILE: timeline.dfy ===
/**
 * The editor state of public/js/app.js: imported media, timeline clips, the
 * number of rendered tracks, the undo log of {clips, tracks} snapshots, the
 * video-sequence cursor, the preview and the zoom level; and the operations
 * that change it. Clip ids are parameters (the source draws them from the
 * clock and a random number); the two DOM facts that change behaviour (is
 * there a track container, is there a playhead) are fields fixed at start-up.
 */
module Timeline {
  import opened Options
  import opened Text
  import opened History

  datatype MediaFile = MediaFile(id: string, name: string, mimeType: string, size: nat, url: string)

  datatype Clip = Clip(
    id: string,
    fileId: string,
    name: string,
    file: MediaFile,
    track: nat,
    startTime: nat,
    duration: nat)

  /** One undo entry: the serialized `{clips, tracks}` pair, held by value. */
  datatype Snapshot = Snapshot(clips: seq<Clip>, tracks: nat)

  datatype Editor = Editor(
    media: seq<MediaFile>,
    clips: seq<Clip>,
    tracks: nat,
    log: Log<Snapshot>,
    sequenceIndex: nat,
    playingSequence: bool,
    preview: Option<MediaFile>,
    zoom: real,
    hasTrackContainer: bool,
    hasPlayhead: bool)

  const DefaultDuration: nat := 5
  const MinZoom: real := 0.5
  const MaxZoom: real := 3.0
  const ZoomStep: real := 0.1
  const SplitSuffix: string := " (Part 2)"
  const VideoPrefix: string := "video/"

  /** The state a freshly loaded editor page starts from, with `tracks` tracks in its markup. */
  function Init(tracks: nat, hasTrackContainer: bool, hasPlayhead: bool): (e: Editor)
    ensures Coherent(e) && |e.log.entries| == 0 && e.zoom == 1.0
  {
    Editor([], [], tracks, Empty(), 0, false, None, 1.0, hasTrackContainer, hasPlayhead)
  }

  /** What `addToHistory` serializes. */
  function Current(e: Editor): Snapshot {
    Snapshot(e.clips, e.tracks)
  }

  /**
   * Consecutive undo entries differ by at most one added track, and by none
   * when the page has no track container (then `addTrack` does nothing).
   */
  predicate TrackStep(a: Snapshot, b: Snapshot, hasTrackContainer: bool) {
    a.tracks <= b.tracks <= a.tracks + (if hasTrackContainer then 1 else 0)
  }

  /**
   * The invariant every reachable editor keeps: the log is well formed, its
   * current entry is exactly the live {clips, tracks}, and neighbouring entries
   * are one operation apart as far as the track count goes.
   */
  ghost predicate Coherent(e: Editor) {
    && e.log.Valid()
    && (|e.log.entries| > 0 ==> e.log.entries[e.log.index] == Current(e))
    && (forall j :: 0 <= j < |e.log.entries| - 1 ==>
          TrackStep(e.log.entries[j], e.log.entries[j + 1], e.hasTrackContainer))
  }

  predicate UniqueIds(clips: seq<Clip>) {
    forall i, j :: 0 <= i < j < |clips| ==> clips[i].id != clips[j].id
  }

  predicate FreshId(clips: seq<Clip>, id: string) {
    forall i :: 0 <= i < |clips| ==> clips[i].id != id
  }

  // ---------------------------------------------------------------- history

  /** `addToHistory`: record a value copy of the live {clips, tracks}. */
  function AddToHistory(e: Editor): (r: Editor)
    requires e.log.Valid()
    ensures r.log.Valid() && r.log.AtEnd()
    ensures r.log.entries == e.log.entries[..e.log.index + 1] + [Current(e)]
    ensures r.log.entries[r.log.index] == Current(r)
    ensures r.(log := e.log) == e
  {
    e.(log := Push(e.log, Current(e)))
  }

  /** Recording a state one operation away from the current entry keeps the editor coherent. */
  lemma PushKeepsCoherent(e: Editor, e1: Editor)
    requires Coherent(e)
    requires e1.log == e.log && e1.hasTrackContainer == e.hasTrackContainer
    requires TrackStep(Current(e), Current(e1), e.hasTrackContainer)
    ensures Coherent(AddToHistory(e1))
  {
    var h := e.log;
    var r := AddToHistory(e1);
    var n := |r.log.entries|;
    forall j | 0 <= j < n - 1
      ensures TrackStep(r.log.entries[j], r.log.entries[j + 1], e.hasTrackContainer)
    {
      if j + 1 < n - 1 {
        assert r.log.entries[j] == h.entries[j] && r.log.entries[j + 1] == h.entries[j + 1];
      } else {
        assert r.log.entries[j] == h.entries[h.index] == Current(e);
      }
    }
  }

  /** `addTextOverlay`: the overlay lives in the DOM only, but a history entry is still recorded. */
  function AddTextOverlay(e: Editor): (r: Editor)
    requires e.log.Valid()
    ensures r.(log := e.log) == e
    ensures r.log.AtEnd() && r.log.entries == e.log.entries[..e.log.index + 1] + [Current(e)]
    ensures Coherent(e) ==> Coherent(r)
  {
    assert Coherent(e) ==> Coherent(AddToHistory(e)) by {
      if Coherent(e) { PushKeepsCoherent(e, e); }
    }
    AddToHistory(e)
  }

  // ---------------------------------------------------------------- media lookup

  /** `mediaFiles.find(f => f.id === id)`, as the position of the first match at or after `from`. */
  function FindFrom(media: seq<MediaFile>, id: string, from: nat): (r: Option<nat>)
    ensures r.Some? ==> from <= r.value < |media| && media[r.value].id == id
    ensures r.Some? ==> forall j :: from <= j < r.value ==> media[j].id != id
    ensures r.None? ==> forall j :: from <= j < |media| ==> media[j].id != id
    decreases |media| - from
  {
    if from >= |media| then None
    else if media[from].id == id then Some(from)
    else FindFrom(media, id, from + 1)
  }

  /** The first media file with the given id, if any. */
  function Lookup(media: seq<MediaFile>, id: string): (r: Option<MediaFile>)
    ensures r.Some? ==> r.value in media && r.value.id == id
    ensures r.Some? ==> exists k :: 0 <= k < |media| && media[k] == r.value
                                    && forall j :: 0 <= j < k ==> media[j].id != id
    ensures r.None? <==> forall j :: 0 <= j < |media| ==> media[j].id != id
  {
    match FindFrom(media, id, 0)
    case Some(k) => Some(media[k])
    case None => None
  }

  predicate IsVideo(f: MediaFile) {
    StartsWith(f.mimeType, VideoPrefix)
  }

  /** The clip's media reference resolves, and to a file whose type starts with "video/". */
  predicate ClipIsVideo(media: seq<MediaFile>, c: Clip) {
    match Lookup(media, c.fileId)
    case Some(f) => IsVideo(f)
    case None => false
  }

  // ---------------------------------------------------------------- video sequence

  /** `getVideoClips`: the clips playing as the video sequence, in timeline order. */
  function VideoClips(media: seq<MediaFile>, clips: seq<Clip>): (r: seq<Clip>)
    ensures |r| <= |clips|
    ensures forall i :: 0 <= i < |r| ==> r[i] in clips && ClipIsVideo(media, r[i])
    decreases |clips|
  {
    if |clips| == 0 then []
    else (if ClipIsVideo(media, clips[0]) then [clips[0]] else []) + VideoClips(media, clips[1..])
  }

  /** Conversely, no clip that resolves to video media is left out. */
  lemma {:induction false} VideoClipsKeepsEveryVideo(media: seq<MediaFile>, clips: seq<Clip>, i: nat)
    requires i < |clips| && ClipIsVideo(media, clips[i])
    ensures clips[i] in VideoClips(media, clips)
    decreases i
  {
    if i > 0 {
      VideoClipsKeepsEveryVideo(media, clips[1..], i - 1);
    }
  }

  /**
   * The filter keeps timeline order: splitting the clip list anywhere splits the
   * video sequence at the corresponding point.
   */
  lemma {:induction false} VideoClipsAppend(media: seq<MediaFile>, a: seq<Clip>, b: seq<Clip>)
    ensures VideoClips(media, a + b) == VideoClips(media, a) + VideoClips(media, b)
    decreases |a|
  {
    if |a| > 0 {
      assert (a + b)[0] == a[0];
      assert (a + b)[1..] == a[1..] + b;
      VideoClipsAppend(media, a[1..], b);
    } else {
      assert a + b == b;
    }
  }

  /** A single clip is kept exactly when it resolves to video media; dangling references are dropped. */
  lemma VideoClipsSingle(media: seq<MediaFile>, c: Clip)
    ensures VideoClips(media, [c]) == if ClipIsVideo(media, c) then [c] else []
    ensures Lookup(media, c.fileId).None? ==> VideoClips(media, [c]) == []
  {
    assert [c][1..] == [];
  }

  /** `setupVideoSequence`: with at least one video clip, rewind to the first and preview it. */
  function SetupVideoSequence(e: Editor): (r: Editor)
    ensures var v := VideoClips(e.media, e.clips);
            |v| > 0 ==> r.sequenceIndex == 0 && r.playingSequence
                        && r.preview.Some? && r.preview.value.id == v[0].fileId && IsVideo(r.preview.value)
    ensures |VideoClips(e.media, e.clips)| == 0 ==> r == e
    ensures r.(sequenceIndex := e.sequenceIndex, playingSequence := e.playingSequence, preview := e.preview) == e
  {
    var v := VideoClips(e.media, e.clips);
    if |v| == 0 then e
    else
      assert v[0] in v;
      var first := Lookup(e.media, v[0].fileId).value;
      e.(sequenceIndex := 0, playingSequence := true, preview := Some(first))
  }

  /**
   * `playNextInSequence`, run when the previewed video ends: advance to the
   * next video clip, or wrap back to the first once past the last.
   */
  function PlayNext(e: Editor): (r: Editor)
    ensures var v := VideoClips(e.media, e.clips);
            && (|v| > 0 ==> r.sequenceIndex < |v|)
            && (e.sequenceIndex + 1 < |v| ==>
                  (r.sequenceIndex == e.sequenceIndex + 1
                   && r.preview.Some? && r.preview.value.id == v[r.sequenceIndex].fileId))
            && (e.sequenceIndex + 1 >= |v| ==> r.sequenceIndex == 0 && r.preview == e.preview)
    ensures r.(sequenceIndex := e.sequenceIndex, preview := e.preview) == e
  {
    var v := VideoClips(e.media, e.clips);
    var i := e.sequenceIndex + 1;
    if i < |v| then
      assert v[i] in v;
      var next := Lookup(e.media, v[i].fileId).value;
      e.(sequenceIndex := i, preview := Some(next))
    else
      e.(sequenceIndex := 0)
  }

  /**
   * `n` consecutive "ended" events. Starting from the first video clip, the
   * n-th event moves the cursor to clip n, and after the last one it is back
   * at the first.
   */
  function PlayNextTimes(e: Editor, n: nat): (r: Editor)
    ensures r.media == e.media && r.clips == e.clips
    ensures var v := VideoClips(e.media, e.clips);
            e.sequenceIndex == 0 && n <= |v| ==> r.sequenceIndex == if n == |v| then 0 else n
    ensures var v := VideoClips(e.media, e.clips);
            e.sequenceIndex == 0 && 0 < n < |v| ==> r.preview.Some? && r.preview.value.id == v[n].fileId
    decreases n
  {
    if n == 0 then e else PlayNext(PlayNextTimes(e, n - 1))
  }

  /**
   * Starting a sequence and then letting videos end plays the video clips in
   * timeline order: after n "ended" events clip n is previewed, and once every
   * clip has played the cursor is back at the first.
   */
  lemma SequencePlaysInOrder(e: Editor, n: nat)
    requires n <= |VideoClips(e.media, e.clips)|
    ensures var v := VideoClips(e.media, e.clips);
            var r := PlayNextTimes(SetupVideoSequence(e), n);
            && (n < |v| ==> r.sequenceIndex == n && r.preview.Some? && r.preview.value.id == v[n].fileId)
            && (0 < n == |v| ==> r.sequenceIndex == 0)
  {
    var s := SetupVideoSequence(e);
    if |VideoClips(e.media, e.clips)| > 0 {
      assert s.media == e.media && s.clips == e.clips;
    }
  }

  // ---------------------------------------------------------------- clip operations

  /** Append one clip and record the result: the step adding and splitting have in common. */
  function AppendClip(e: Editor, c: Clip): (r: Editor)
    requires e.log.Valid()
    ensures r.clips == e.clips + [c]
    ensures r.log.Valid() && r.log.AtEnd() && r.log.entries == e.log.entries[..e.log.index + 1] + [Current(r)]
    ensures r.(clips := e.clips, log := e.log) == e
    ensures UniqueIds(e.clips) && FreshId(e.clips, c.id) ==> UniqueIds(r.clips)
    ensures Coherent(e) ==> Coherent(r)
  {
    var e1 := e.(clips := e.clips + [c]);
    assert Coherent(e) ==> Coherent(AddToHistory(e1)) by {
      if Coherent(e) { PushKeepsCoherent(e, e1); }
    }
    AddToHistory(e1)
  }

  /**
   * `addClipToTimeline`: append a clip for `file` with the new id, start 0 and
   * the default duration, record one history entry, then either set up the
   * video sequence (more than one video clip) or preview the file.
   */
  function AddClip(e: Editor, file: MediaFile, clipId: string, track: nat): (r: Editor)
    requires e.log.Valid()
    ensures |r.clips| == |e.clips| + 1 && r.clips[..|e.clips|] == e.clips
    ensures var c := r.clips[|e.clips|];
            c.id == clipId && c.fileId == file.id && c.name == file.name && c.file == file
            && c.track == track && c.startTime == 0 && c.duration == DefaultDuration
    ensures r.media == e.media && r.tracks == e.tracks && r.zoom == e.zoom
    ensures r.log.AtEnd() && r.log.entries == e.log.entries[..e.log.index + 1] + [Current(r)]
    ensures r.(clips := e.clips, log := e.log, sequenceIndex := e.sequenceIndex,
               playingSequence := e.playingSequence, preview := e.preview) == e
    ensures var v := VideoClips(r.media, r.clips);
            |v| > 1 ==> r.sequenceIndex == 0 && r.playingSequence
                        && r.preview.Some? && r.preview.value.id == v[0].fileId
    ensures |VideoClips(r.media, r.clips)| <= 1 ==>
              r.preview == Some(file) && r.sequenceIndex == e.sequenceIndex && r.playingSequence == e.playingSequence
    ensures UniqueIds(e.clips) && FreshId(e.clips, clipId) ==> UniqueIds(r.clips)
    ensures Coherent(e) ==> Coherent(r)
  {
    var e2 := AppendClip(e, Clip(clipId, file.id, file.name, file, track, 0, DefaultDuration));
    assert e2.clips[..|e.clips|] == e.clips;
    if |VideoClips(e2.media, e2.clips)| > 1 then SetupVideoSequence(e2)
    else e2.(preview := Some(file))
  }

  /**
   * `handleFileDrop` for one file: register it, and when it is a video put it
   * on the timeline with the current clip count as its track index.
   */
  function Import(e: Editor, file: MediaFile, clipId: string): (r: Editor)
    requires e.log.Valid()
    ensures r.media == e.media + [file]
    ensures IsVideo(file) ==> |r.clips| == |e.clips| + 1 && r.clips[..|e.clips|] == e.clips
                              && r.clips[|e.clips|].fileId == file.id && r.clips[|e.clips|].track == |e.clips|
                              && |r.log.entries| == e.log.index + 2
    ensures !IsVideo(file) ==> r == e.(media := e.media + [file])
    ensures Coherent(e) ==> Coherent(r)
  {
    var e1 := e.(media := e.media + [file]);
    if IsVideo(file) then AddClip(e1, file, clipId, |e1.clips|) else e1
  }

  /** A click on a library item (`addMediaToLibrary`): place the file on the track numbered by the clip count. */
  function AddFromLibrary(e: Editor, file: MediaFile, clipId: string): (r: Editor)
    requires e.log.Valid()
    ensures |r.clips| == |e.clips| + 1 && r.clips[..|e.clips|] == e.clips
    ensures r.clips[|e.clips|].fileId == file.id && r.clips[|e.clips|].track == |e.clips|
    ensures r.media == e.media && r.tracks == e.tracks && r.zoom == e.zoom
    ensures r.log.AtEnd() && |r.log.entries| == e.log.index + 2
    ensures Coherent(e) ==> Coherent(r)
  {
    AddClip(e, file, clipId, |e.clips|)
  }

  /** `addTrack`: with a track container, one more track and one history entry; otherwise nothing. */
  function AddTrack(e: Editor): (r: Editor)
    requires e.log.Valid()
    ensures r.log.Valid()
    ensures e.hasTrackContainer ==> r.tracks == e.tracks + 1 && r.clips == e.clips
                                    && r.log.AtEnd() && r.log.entries == e.log.entries[..e.log.index + 1] + [Current(r)]
    ensures !e.hasTrackContainer ==> r == e
    ensures r.(tracks := e.tracks, log := e.log) == e
    ensures Coherent(e) ==> Coherent(r)
  {
    if e.hasTrackContainer then
      var e1 := e.(tracks := e.tracks + 1);
      assert Coherent(e) ==> Coherent(AddToHistory(e1)) by {
        if Coherent(e) { PushKeepsCoherent(e, e1); }
      }
      AddToHistory(e1)
    else e
  }

  /**
   * `splitClip`: with a playhead and at least one clip, append a copy of the
   * last clip under a new id with " (Part 2)" added to its name, and record one
   * history entry; otherwise nothing changes.
   */
  function SplitClip(e: Editor, newId: string): (r: Editor)
    requires e.log.Valid()
    ensures e.hasPlayhead && |e.clips| > 0 ==>
              var last := e.clips[|e.clips| - 1];
              && |r.clips| == |e.clips| + 1 && r.clips[..|e.clips|] == e.clips
              && r.clips[|e.clips|] == last.(id := newId, name := last.name + SplitSuffix)
              && r.log.AtEnd() && r.log.entries == e.log.entries[..e.log.index + 1] + [Current(r)]
    ensures !e.hasPlayhead || |e.clips| == 0 ==> r == e
    ensures r.(clips := e.clips, log := e.log) == e
    ensures UniqueIds(e.clips) && FreshId(e.clips, newId) ==> UniqueIds(r.clips)
    ensures Coherent(e) ==> Coherent(r)
  {
    if e.hasPlayhead && |e.clips| > 0 then
      var last := e.clips[|e.clips| - 1];
      var r := AppendClip(e, last.(id := newId, name := last.name + SplitSuffix));
      assert r.clips[..|e.clips|] == e.clips;
      r
    else e
  }

  /**
   * Entries are values: an edit after recording may cut off entries past the
   * current one, but never alters an entry up to it.
   */
  lemma EditsKeepRecordedEntries(e: Editor, file: MediaFile, clipId: string, track: nat, newId: string)
    requires e.log.Valid()
    ensures var k := e.log.index + 1;
            && AddClip(e, file, clipId, track).log.entries[..k] == e.log.entries[..k]
            && SplitClip(e, newId).log.entries[..k] == e.log.entries[..k]
            && AddTrack(e).log.entries[..k] == e.log.entries[..k]
            && AddTextOverlay(e).log.entries[..k] == e.log.entries[..k]
  {
    var k := e.log.index + 1;
    var prefix := e.log.entries[..k];
    forall x: Snapshot
      ensures (prefix + [x])[..k] == prefix
    {
    }
  }

  // ---------------------------------------------------------------- zoom

  /** `setZoom`: the level is clamped into [0.5, 3] and stored whether or not media is shown. */
  function SetZoom(e: Editor, level: real): (r: Editor)
    ensures MinZoom <= r.zoom <= MaxZoom
    ensures MinZoom <= level <= MaxZoom ==> r.zoom == level
    ensures level < MinZoom ==> r.zoom == MinZoom
    ensures level > MaxZoom ==> r.zoom == MaxZoom
    ensures r.(zoom := e.zoom) == e
  {
    var capped := if level < MaxZoom then level else MaxZoom;
    e.(zoom := if capped > MinZoom then capped else MinZoom)
  }

  /** Clamping is monotone and settles after one application. */
  lemma SetZoomMonotoneIdempotent(e: Editor, a: real, b: real)
    requires a <= b
    ensures SetZoom(e, a).zoom <= SetZoom(e, b).zoom
    ensures SetZoom(SetZoom(e, a), SetZoom(e, a).zoom) == SetZoom(e, a)
  {
  }

  /** The "+" and "Zoom" buttons. */
  function ZoomIn(e: Editor): (r: Editor)
    ensures MinZoom <= r.zoom <= MaxZoom
    ensures e.zoom <= MaxZoom ==> e.zoom <= r.zoom
    ensures e.zoom >= MaxZoom ==> r.zoom == MaxZoom
    ensures MinZoom <= e.zoom <= MaxZoom - ZoomStep ==> r.zoom == e.zoom + ZoomStep
    ensures r.(zoom := e.zoom) == e
  {
    SetZoom(e, e.zoom + ZoomStep)
  }

  /** The "-" button. */
  function ZoomOut(e: Editor): (r: Editor)
    ensures MinZoom <= r.zoom <= MaxZoom
    ensures e.zoom >= MinZoom ==> r.zoom <= e.zoom
    ensures e.zoom <= MinZoom ==> r.zoom == MinZoom
    ensures MinZoom + ZoomStep <= e.zoom <= MaxZoom ==> r.zoom == e.zoom - ZoomStep
    ensures r.(zoom := e.zoom) == e
  {
    SetZoom(e, e.zoom - ZoomStep)
  }

  /** One step in and one step out return to the same level anywhere away from the bounds. */
  lemma ZoomInThenOut(e: Editor)
    requires MinZoom <= e.zoom <= MaxZoom - ZoomStep
    ensures ZoomOut(ZoomIn(e)).zoom == e.zoom
  {
  }
}

=== FILE: undo.dfy ===
/**
 * `undo`, `redo` and `restoreHistoryState` of public/js/app.js.
 *
 * As written, restoring a snapshot that has more tracks than are rendered
 * calls `addTrack` once per missing track, and `addTrack` records a history
 * entry of its own. The `...AsWritten` members model exactly that. For every
 * coherent editor this never matters for undo, but a redo across a step that
 * added a track records a duplicate entry, which truncates every later entry
 * out of the log. `Undo` and `Redo` are the evident intent: reconcile the track
 * count without recording anything, so that undo and redo are inverses.
 */
module UndoRedo {
  import opened History
  import opened Timeline

  /** The loop at app.js:896: `k` calls of `addTrack`. */
  function AddTracks(e: Editor, k: nat): (r: Editor)
    requires e.log.Valid()
    ensures r.log.Valid()
    ensures r.clips == e.clips && r.hasTrackContainer == e.hasTrackContainer
    ensures r.media == e.media && r.zoom == e.zoom && r.preview == e.preview
    ensures e.hasTrackContainer ==> r.tracks == e.tracks + k
    ensures !e.hasTrackContainer ==> r == e
    decreases k
  {
    if k == 0 then e else AddTrack(AddTracks(e, k - 1))
  }

  /** `restoreHistoryState` as written: replace the clips, then add or remove tracks. */
  function RestoreAsWritten(e: Editor, s: Snapshot): (r: Editor)
    requires e.log.Valid()
    ensures r.log.Valid() && r.clips == s.clips
    ensures s.tracks <= e.tracks ==> r.tracks == s.tracks && r.log == e.log
  {
    var e1 := e.(clips := s.clips);
    if s.tracks > e.tracks then AddTracks(e1, s.tracks - e.tracks)
    else e1.(tracks := s.tracks)
  }

  /** `undo` as written: the index moves back first, then the snapshot there is restored. */
  function UndoAsWritten(e: Editor): (r: Editor)
    requires e.log.Valid()
    ensures r.log.Valid()
    ensures !e.log.CanUndo() ==> r == e
    ensures Coherent(e) ==> r == Undo(e)
  {
    if e.log.CanUndo() then
      RestoreAsWritten(e.(log := Back(e.log)), e.log.entries[e.log.index - 1])
    else e
  }

  /** `redo` as written: the index moves forward first, then the snapshot there is restored. */
  function RedoAsWritten(e: Editor): (r: Editor)
    requires e.log.Valid()
    ensures r.log.Valid()
    ensures !e.log.CanRedo() ==> r == e
  {
    if e.log.CanRedo() then
      RestoreAsWritten(e.(log := Forward(e.log)), e.log.entries[e.log.index + 1])
    else e
  }

  /** Redo as written across a step that kept the track count is the intended redo. */
  lemma RedoAsWrittenSameTracks(e: Editor)
    requires Coherent(e) && e.log.CanRedo()
    requires e.log.entries[e.log.index + 1].tracks == e.tracks
    ensures RedoAsWritten(e) == Redo(e)
  {
    assert e.log.entries[e.log.index] == Current(e);
  }

  /**
   * Redo as written across a step that added a track is the intended redo
   * followed by one more `addToHistory`.
   */
  lemma RedoAsWrittenRecordsAgain(e: Editor)
    requires Coherent(e) && e.log.CanRedo()
    requires e.log.entries[e.log.index + 1].tracks != e.tracks
    ensures RedoAsWritten(e) == AddToHistory(Redo(e))
  {
    var next := e.log.entries[e.log.index + 1];
    assert TrackStep(e.log.entries[e.log.index], next, e.hasTrackContainer);
    var e1 := e.(log := Forward(e.log), clips := next.clips);
    assert next.tracks == e.tracks + 1;
    assert RedoAsWritten(e) == AddTracks(e1, 1) == AddTrack(e1);
    assert e1.(tracks := e.tracks + 1) == Redo(e);
  }

  /**
   * So a copy of the entry just redone is recorded, every entry after it is
   * cut off, and nothing is left to redo.
   */
  lemma RedoAsWrittenAddedTrack(e: Editor)
    requires Coherent(e) && e.log.CanRedo()
    requires e.log.entries[e.log.index + 1].tracks != e.tracks
    ensures var next := e.log.entries[e.log.index + 1];
            var r := RedoAsWritten(e);
            && r.log.entries == e.log.entries[..e.log.index + 2] + [next]
            && r.log.index == e.log.index + 2
            && Current(r) == next
            && !r.log.CanRedo()
            && Coherent(r)
  {
    RedoAsWrittenRecordsAgain(e);
    PushKeepsCoherent(Redo(e), Redo(e));
  }

  /**
   * On a coherent editor, redo as written agrees with `Redo` unless the next
   * entry has one more track. Then the restore records a copy of that entry,
   * every entry after it is dropped, and nothing is left to redo.
   */
  lemma RedoAsWrittenAcrossAddedTrack(e: Editor)
    requires Coherent(e) && e.log.CanRedo()
    ensures var next := e.log.entries[e.log.index + 1];
            var r := RedoAsWritten(e);
            && (next.tracks == e.tracks ==> r == Redo(e))
            && (next.tracks != e.tracks ==>
                  && r.log.entries == e.log.entries[..e.log.index + 2] + [next]
                  && r.log.index == e.log.index + 2
                  && Current(r) == next
                  && !r.log.CanRedo())
    ensures Coherent(RedoAsWritten(e))
  {
    if e.log.entries[e.log.index + 1].tracks == e.tracks {
      RedoAsWrittenSameTracks(e);
    } else {
      RedoAsWrittenAddedTrack(e);
    }
  }

  /** A text overlay, a new track, then a dropped video file, on a page that starts with one track. */
  function Session(file: MediaFile): (e: Editor)
    requires IsVideo(file)
    ensures Coherent(e)
  {
    Import(AddTrack(AddTextOverlay(Init(1, true, true))), file, "c1")
  }

  /** The session's log: the overlay entry, the added-track entry, then the clip's entry. */
  lemma SessionLog(file: MediaFile)
    requires IsVideo(file)
    ensures var e := Session(file);
            && e.log.entries == [Snapshot([], 1), Snapshot([], 2), Current(e)]
            && e.log.index == 2 && |e.clips| == 1 && e.tracks == 2
  {
    var e1 := AddTextOverlay(Init(1, true, true));
    assert e1.log == Log([Snapshot([], 1)], 0);
    var e2 := AddTrack(e1);
    assert e2.log == Log([Snapshot([], 1), Snapshot([], 2)], 1);
  }

  /**
   * The history of the session above after two undos: as written, redoing
   * twice ends on the entry with the added track, not on the one with the
   * clip, because the first redo truncated the clip's entry away. The
   * corrected pair gets back exactly.
   */
  lemma RedoAsWrittenLosesLaterEntries(file: MediaFile)
    requires IsVideo(file)
    ensures var e := Session(file);
            && Current(RedoAsWritten(RedoAsWritten(UndoAsWritten(UndoAsWritten(e))))) != Current(e)
            && Redo(Redo(Undo(Undo(e)))) == e
  {
    var e := Session(file);
    SessionLog(file);
    var b := Snapshot([], 2);
    UndoThenRedo(Undo(e));
    UndoThenRedo(e);
    var u := Undo(Undo(e));
    assert UndoAsWritten(UndoAsWritten(e)) == u;
    assert u.log.index == 0 && u.tracks == 1;
    RedoAsWrittenAddedTrack(u);
    var r1 := RedoAsWritten(u);
    assert Current(r1) == b && !r1.log.CanRedo();
    assert RedoAsWritten(r1) == r1;
    assert |Current(e).clips| == 1;
  }

  /** The intended restore: the snapshot's clips and track count become the live ones, nothing is recorded. */
  function Restore(e: Editor, s: Snapshot): (r: Editor)
    ensures Current(r) == s
    ensures r.(clips := e.clips, tracks := e.tracks) == e
  {
    e.(clips := s.clips, tracks := s.tracks)
  }

  /** `undo`: when there is an earlier entry, step back to it and restore it; otherwise nothing changes. */
  function Undo(e: Editor): (r: Editor)
    requires e.log.Valid()
    ensures r.log.Valid() && r.log.entries == e.log.entries
    ensures e.log.CanUndo() ==> r.log.index == e.log.index - 1 && Current(r) == e.log.entries[r.log.index]
    ensures !e.log.CanUndo() ==> r == e
    ensures r.media == e.media && r.zoom == e.zoom && r.preview == e.preview
    ensures Coherent(e) ==> Coherent(r)
  {
    if e.log.CanUndo() then Restore(e.(log := Back(e.log)), e.log.entries[e.log.index - 1]) else e
  }

  /** `redo`: when there is a later entry, step forward to it and restore it; otherwise nothing changes. */
  function Redo(e: Editor): (r: Editor)
    requires e.log.Valid()
    ensures r.log.Valid() && r.log.entries == e.log.entries
    ensures e.log.CanRedo() ==> r.log.index == e.log.index + 1 && Current(r) == e.log.entries[r.log.index]
    ensures !e.log.CanRedo() ==> r == e
    ensures r.media == e.media && r.zoom == e.zoom && r.preview == e.preview
    ensures Coherent(e) ==> Coherent(r)
  {
    if e.log.CanRedo() then Restore(e.(log := Forward(e.log)), e.log.entries[e.log.index + 1]) else e
  }

  /** On a coherent editor, undo followed by redo gives back the same editor, log included. */
  lemma UndoThenRedo(e: Editor)
    requires Coherent(e) && e.log.CanUndo()
    ensures Redo(Undo(e)) == e
  {
  }

  /** On a coherent editor, redo followed by undo gives back the same editor, log included. */
  lemma RedoThenUndo(e: Editor)
    requires Coherent(e) && e.log.CanRedo()
    ensures Undo(Redo(e)) == e
  {
  }

  /** Undo and redo never move the index outside the log once it holds anything. */
  lemma IndexStaysInBounds(e: Editor)
    requires e.log.Valid() && |e.log.entries| > 0
    ensures 0 <= Undo(e).log.index < |e.log.entries|
    ensures 0 <= Redo(e).log.index < |e.log.entries|
    ensures 0 <= UndoAsWritten(e).log.index < |UndoAsWritten(e).log.entries|
    ensures 0 <= RedoAsWritten(e).log.index < |RedoAsWritten(e).log.entries|
  {
  }
}
